=== FILE: README.md ===
# HyperFields core: fields, the field registry and options pages

HyperFields is a declarative builder for WordPress admin forms and settings
pages. This project models in Dafny the three components its unit tests pin
down, and proves properties of the model:

- **Field**: an immutable descriptor identified by a type and a name.
  Construction is checked: the type must belong to a closed set, and the name
  must start with an ASCII letter followed by letters, digits or underscores.
  Otherwise construction fails with an `InvalidArgument` error whose message
  names the offending value. The field has fluent setters with getters and
  construction defaults (context `post`, storage `meta`, not multiple). Every
  attribute after the label records whether it was set. The flattening to an
  attribute array (`toArray`) holds type, name and label plus exactly the
  attributes that were set. The field also has a required-ness
  check (`validateValue`) and a per-type sanitizer (`sanitizeValue`).
- **Registry**: container id, then field name, then field. Within each
  container, fields keep registration order. Operations are register, get
  (empty for an unknown container), get-all, exists, remove (a no-op when
  the container is absent) and clear.
- **OptionsPage**: a settings page with construction defaults and fluent
  setters, made of sections kept in insertion order. The page also covers:
  - folding field defaults into `default_values`;
  - loading stored values over those defaults;
  - choosing the active tab (POSTed tab, then the `tab` query parameter,
    then the first section, then `main`);
  - sanitizing a submission (every field of the active section, with `"0"`
    for an absent checkbox, and an optional compact JSON input that replaces
    the plain input);
  - choosing a top-level or submenu entry;
  - the screen-id guard on asset loading;
  - the hook and settings registrations it asks the host to make.

The implementation classes are not part of this model. It is a
specification-level model of the behaviour the repository's unit tests
assert, and its rules and constants come from the test files cited below.

The model is state-passing and functional:
- The registry singleton is an explicit `Registry` value.
- The request superglobals are a `Request` value.
- The stored option record, the compact-input flag, the plugin URL and the
  version are parameters.
- The host's string filters are a `Sanitizers` record of functions.
- Calls into the host (menu, settings, hooks, assets) are returned as lists
  of call records.

PHP arrays with string keys are insertion-ordered: writing a known key keeps
its position. Where the tests read that order, the array is a sequence of
key/value pairs (`OrderedMap.Put`). These are a container's or a page's fields,
a page's sections, a field's `options`, its validation rules, its
conditional-logic rules and every nested `MArray`. The other arrays are
Dafny `map`s, whose order is not modelled. These are the registry's
containers, `default_values`, the loaded option values, the stored option
record, the request's POST, query and compact-input arrays, the input and
result of `sanitizeOptions`, and the attribute array of `toArray`.

`HostStubs` writes out the string filters the field tests install, so that
the sanitizer examples can be stated about them. These are the script-removing
and tag-stripping `sanitize_text_field` and the `FILTER_SANITIZE_EMAIL`
filter. The options-page tests install identity filters (`PageTestSanitizers`).
PHP's `strip_tags` keeps a `<` that is followed by whitespace. Trimming can then
leave such a `<` at the end, where a second pass drops it. So the stand-in text
filter is not idempotent: `a < ` filters to `a <`, and that filters to `a`.
`Scenarios` replays the tests' assertions against the model.

Files:

| file | contents |
|---|---|
| `wrappers.dfy` | `Option` and `Result` |
| `text.dfy` | ASCII character classes, ASCII lower-casing, PHP `trim` |
| `ordered_map.dfy` | insertion-ordered string-keyed arrays |
| `field.dfy` | the field and its flattening, validation and sanitizing |
| `host_stubs.dfy` | the test suite's stand-in string filters |
| `registry.dfy` | the field registry |
| `options_section.dfy` | sections of an options page |
| `options_page.dfy` | the options page |
| `scenarios.dfy` | the tests' concrete assertions |

## Model

| member | source | states |
|---|---|---|
| Fields.Make | tests/Unit/FieldTest.php:51-58 | Construction succeeds exactly when the type is recognised and the name matches the identifier pattern. Then type, name and label are the arguments, context is `post`, storage is `meta`, and the field is neither multiple nor required. No attribute counts as set. An unknown type fails with "Invalid field type: " followed by the type, checked first. A bad name fails with "Invalid field name: " followed by the name. |
| Fields.SetDefault | tests/Unit/FieldTest.php:65-75 | `getDefault` returns the argument, the attribute counts as set, and no other attribute changes |
| Fields.SetPlaceholder | tests/Unit/FieldTest.php:66-76 | `getPlaceholder` returns the argument, the attribute counts as set, and no other attribute changes |
| Fields.SetRequired | tests/Unit/FieldTest.php:67-77 | `isRequired` returns the argument, the attribute counts as set, and no other attribute changes |
| Fields.SetHelp | tests/Unit/FieldTest.php:68-78 | `getHelp` returns the argument, the attribute counts as set, and no other attribute changes |
| Fields.SetHtml | tests/Unit/FieldTest.php:69-79 | `getHtml` returns the argument, the attribute counts as set, and no other attribute changes |
| Fields.SetHtmlContent | tests/Unit/FieldTest.php:82-88 | `setHtmlContent` is the same operation as `setHtml`, so `getHtml` returns its argument |
| Fields.SetContext | tests/Unit/FieldTest.php:90-105 | `getContext` returns the argument, the attribute counts as set, and no other attribute changes |
| Fields.SetStorageType | tests/Unit/FieldTest.php:107-117 | `getStorageType` returns the argument, the attribute counts as set, and no other attribute changes |
| Fields.SetOptions | tests/Unit/FieldTest.php:119-131 | `getOptions` returns the argument map, in order, the attribute counts as set, and no other attribute changes |
| Fields.SetValidation | tests/Unit/FieldTest.php:169-184 | `getValidation` returns the argument rules, the attribute counts as set, and no other attribute changes |
| Fields.SetConditionalLogic | tests/Unit/FieldTest.php:186-205 | `getConditionalLogic` returns the argument rules, nested arrays included, the attribute counts as set, and no other attribute changes |
| Fields.SetMultiple | tests/Unit/FieldTest.php:207-215 | `isMultiple` returns the argument, the attribute counts as set, and no other attribute changes |
| Fields.ToArray | tests/Unit/FieldTest.php:133-151 | The array always holds type, name and label. Every other attribute is present exactly when it was set, and then holds the set value; an attribute left at its construction default does not appear. |
| Fields.ToArrayRoundTrip | tests/Unit/FieldTest.php:133-151 | flattening loses nothing: every attribute of the field, and whether it was set, is read back from its array |
| Fields.FreshFieldArray | tests/Unit/FieldTest.php:51-58 | a freshly made field flattens to exactly its type, name and label |
| Fields.ValidateValue | tests/Unit/FieldTest.php:229-241 | a value validates exactly when the field is optional or the value is not all whitespace (both directions) |
| Fields.SanitizeValue | tests/Unit/FieldTest.php:217-227 | A text field's value goes through the host's text filter and an email field's through its email filter. A checkbox yields "1" exactly when the raw value is PHP-truthy, and "0" otherwise. Every other type goes through the host's safe-HTML filter (`wp_kses_post`). |
| Fields.AddByName | tests/Unit/RegistryTest.php:62-75 | The field is found under its name and every other name is unchanged. A new name is appended after the existing fields, and a known name keeps the order of names. |
| HostStubs.StripTags | tests/Unit/FieldTest.php:27 | No NUL character is left in the result, since `strip_tags` skips NUL bytes. Every `<` left is followed by a whitespace character, the one case in which `strip_tags` keeps a `<` as text. |
| HostStubs.StripTagsDropsTag | tests/Unit/FieldTest.php:27 | a tag, `<` then a non-whitespace character up to the first `>`, is dropped whole and the text after it is stripped as usual |
| HostStubs.StripTagsTextThenTag | tests/Unit/FieldTest.php:27 | tag-free text before such a tag is kept, except its NUL characters, and the tag itself is dropped |
| HostStubs.FindScriptClose | tests/Unit/FieldTest.php:26 | A result is the first position at or after `from` where `</script>` starts, ignoring case. No result means no closing tag starts at or after `from`. |
| HostStubs.ScriptMatch | tests/Unit/FieldTest.php:26 | a script element matched at the start of the string starts with `<` and its match is non-empty and lies within the string |
| HostStubs.RemoveScripts | tests/Unit/FieldTest.php:26 | removing script elements never lengthens the string, and a string with no `<` is unchanged |
| Text.Trim | tests/Unit/FieldTest.php:28 | the result is a contiguous slice of the input that neither starts nor ends with a character PHP `trim` removes |
| HostStubs.StubSanitizeText | tests/Unit/FieldTest.php:24-30 | The result is trimmed and holds no NUL. Every `<` in it is followed by whitespace, except possibly a final one. |
| HostStubs.StubSanitizeTextIdempotentIff | tests/Unit/FieldTest.php:24-30 | filtering a filtered value again leaves it unchanged exactly when it does not end in `<` (both directions) |
| HostStubs.StubSanitizeTextNotIdempotent | tests/Unit/FieldTest.php:24-30 | For any character `x` that is neither `<` nor one `trim` removes, `x < ` filters to `x <`. That in turn filters to `x`, so the stand-in filter is not idempotent. |
| HostStubs.StubTextOfScriptPrefix | tests/Unit/FieldTest.php:24-30 | a leading script element followed by tag-free, trimmed text filters to exactly that text with its NUL characters removed |
| HostStubs.StubSanitizeEmail | tests/Unit/FieldTest.php:31-33 | the stub email filter keeps only address characters and never lengthens its input; a one-character input is kept exactly when it is an address character |
| HostStubs.StubSanitizeEmailAppend | tests/Unit/FieldTest.php:31-33 | filtering a concatenation is concatenating the filtered parts, so the kept characters stay in their order |
| HostStubs.StubSanitizeEmailKeepsClean | tests/Unit/FieldTest.php:31-33 | an address made only of allowed characters passes the email filter unchanged |
| HostStubs.StubSanitizeEmailIdempotent | tests/Unit/FieldTest.php:31-33 | applying the email filter twice is applying it once |
| FieldRegistry.Empty | tests/Unit/RegistryTest.php:105-110 | a fresh registry has no container |
| FieldRegistry.ContainerExists | tests/Unit/RegistryTest.php:105-136 | a container exists exactly when `getAllFields` lists it, and a container that does not exist has no fields |
| FieldRegistry.GetFields | tests/Unit/RegistryTest.php:77-84 | An unknown container yields an empty list. Otherwise the list has one entry per registered field: each entry is the field registered under its own name, and every registered field appears. |
| FieldRegistry.RegisterField | tests/Unit/RegistryTest.php:50-60 | Afterwards the container exists and holds the field under its name. The container's other names are unchanged. Every other container keeps its existence and its fields. |
| FieldRegistry.GetAllFields | tests/Unit/RegistryTest.php:86-103 | The result is keyed by exactly the existing containers. Under each container it lists the same fields in the same order as `getFields`, and maps every name to the field registered under it. |
| FieldRegistry.RemoveContainer | tests/Unit/RegistryTest.php:117-136 | Afterwards the container does not exist. Removing an absent container leaves the registry as it was. Other containers keep their existence and their fields. |
| FieldRegistry.Clear | tests/Unit/RegistryTest.php:138-155 | no container exists afterwards and `getAllFields` is empty |
| FieldRegistry.RegisterIntoNewContainer | tests/Unit/RegistryTest.php:50-60 | registering one field into a new container yields exactly that field |
| FieldRegistry.RegisterAppends | tests/Unit/RegistryTest.php:62-75 | registering a field with a new name appends it after the container's fields |
| FieldRegistry.RegisterReplacesInPlace | tests/Unit/RegistryTest.php:62-75 | re-registering a known name keeps the container's size and order of names |
| FieldRegistry.RegisterAllInOrder | tests/Unit/RegistryTest.php:62-75 | registering fields with distinct new names one after another appends them in registration order |
| FieldRegistry.RegisterIsolated | tests/Unit/RegistryTest.php:86-103 | registering in one container changes neither the existence nor the fields of another |
| FieldRegistry.RegisterThenRemove | tests/Unit/RegistryTest.php:117-127 | registering into a new container and then removing it restores the original registry |
| OptionsSections.New | tests/Unit/OptionsPageTest.php:167-171 | a new section has the given id, title and description (empty unless given) and no fields |
| OptionsSections.AddField | tests/Unit/OptionsPageTest.php:296-300 | The field is stored under its name and the section's other fields are unchanged. A new name is appended after the section's names and its field after the section's fields; a known name keeps the order of names. The id, title and description are unchanged. |
| OptionsSections.AddById | tests/Unit/OptionsPageTest.php:152-165 | The section is stored under its id and every other id is unchanged. A new id is appended to the order and a known id keeps its place. |
| OptionsPages.Make | tests/Unit/OptionsPageTest.php:60-89 | A new page has the given page title and slug, and the menu title equals the page title. Capability is `manage_options`, the parent is `options-general.php` and the option name is `hyperpress_options`. There is no icon, position or footer, and there are no sections, fields or values. |
| OptionsPages.SetMenuTitle | tests/Unit/OptionsPageTest.php:91-98 | stores the argument and changes nothing else |
| OptionsPages.SetCapability | tests/Unit/OptionsPageTest.php:100-107 | stores the argument and changes nothing else |
| OptionsPages.SetParentSlug | tests/Unit/OptionsPageTest.php:109-116 | stores the argument and changes nothing else |
| OptionsPages.SetIconUrl | tests/Unit/OptionsPageTest.php:118-125 | stores the argument and changes nothing else |
| OptionsPages.SetPosition | tests/Unit/OptionsPageTest.php:127-134 | stores the argument and changes nothing else |
| OptionsPages.SetOptionName | tests/Unit/OptionsPageTest.php:136-141 | `getOptionName` returns the argument and nothing else changes |
| OptionsPages.SetFooterContent | tests/Unit/OptionsPageTest.php:143-150 | stores the argument and changes nothing else |
| OptionsPages.AddSection | tests/Unit/OptionsPageTest.php:152-165 | The returned section is a new one with the given id. The page holds that same section under that id. A new id is appended after the page's section ids, and a known id keeps the order of ids. Other sections and all other page attributes are unchanged. |
| OptionsPages.SectionAddField | tests/Unit/OptionsPageTest.php:296-300 | Adding a field through a section obtained from `addSection` changes the section the page holds under that id, and the order of section ids is unchanged. Nothing changes when there is no such section. |
| OptionsPages.FoldDefaults | tests/Unit/OptionsPageTest.php:167-186 | Each field's default ends up under its name, and other keys keep their earlier values. The keys are exactly the earlier keys plus the field names. |
| OptionsPages.AddSectionObject | tests/Unit/OptionsPageTest.php:167-186 | The section is stored under its id. A new id is appended after the page's section ids, and a known id keeps the order of ids. Every field of the section has its default under its name in `default_values`, and defaults of other names are kept. Nothing else changes. |
| OptionsPages.AddPageField | tests/Unit/OptionsPageTest.php:188-200 | The page's own fields hold the field under its name and `default_values` holds its default. Other names are unchanged. |
| OptionsPages.LoadOptions | tests/Unit/OptionsPageTest.php:211-229 | Every stored key takes its stored value, and every default not overridden keeps the default. No other key appears. |
| OptionsPages.LoadAddedField | tests/Unit/OptionsPageTest.php:211-229 | after a field is added and the stored record loaded, the field's value is the stored one when the record has its name, and its default otherwise |
| OptionsPages.ActiveTab | tests/Unit/OptionsPageTest.php:334-385 | The POSTed `hyperpress_active_tab` wins, then the `tab` query parameter, then the first section's id. With no sections the tab is `main`. |
| OptionsPages.EffectiveInput | tests/Unit/OptionsPageTest.php:315-332 | In compact mode, when the decoded blob holds the option name's sub-map, that sub-map is the input. Otherwise the plain input is used. |
| OptionsPages.SanitizeFields | tests/Unit/OptionsPageTest.php:294-311 | A field present in the input gets its sanitized value, and an absent checkbox gets "0". Any other absent field keeps its previous entry, as does every key that is not a field name. |
| OptionsPages.ActiveFields | tests/Unit/OptionsPageTest.php:294-311 | a tab naming a section selects exactly that section's fields, and a tab naming no section selects none |
| OptionsPages.SanitizeOptions | tests/Unit/OptionsPageTest.php:294-332 | Each field of the active section is sanitized from the effective input, and an absent checkbox becomes "0". Keys of other fields keep their previous value. |
| OptionsPages.CompactInputIgnoresPlainInput | tests/Unit/OptionsPageTest.php:315-332 | in compact mode with the sub-map present, the result does not depend on the plain input |
| OptionsPages.ActiveCheckboxesAreBinary | tests/Unit/OptionsPageTest.php:294-311 | every checkbox of the active section ends up "0" or "1", whether or not it was in the input |
| OptionsPages.AddMenuPage | tests/Unit/OptionsPageTest.php:231-267 | The entry is top-level exactly when the parent slug is `menu`, and then carries the icon. Otherwise it is a submenu under the parent slug. Both carry the page's titles, capability, slug and position. |
| OptionsPages.EnqueueAssets | tests/Unit/OptionsPageTest.php:387-426 | Assets are enqueued exactly when the screen id is `settings_page_` followed by the slug. Then there are exactly three calls: the template assets, the `hyperpress-admin-options` script (plugin URL plus `assets/js/admin-options.js`, after `jquery`, at the version, in the footer) and its `hyperpressOptions` localization. |
| OptionsPages.Register | tests/Unit/OptionsPageTest.php:202-209 | exactly three hooks: `admin_menu`, `admin_init` and `admin_enqueue_scripts` |
| OptionsPages.SectionCalls | tests/Unit/OptionsPageTest.php:269-292 | There is one section call per section and one field call per field of each section, passing the field's attribute array. Nothing else is called. |
| OptionsPages.RegisterSettings | tests/Unit/OptionsPageTest.php:269-292 | First comes the one setting named by the option name. Then come the section and field calls for every section, under the option name as page id, and no further setting. |
| Scenarios.FieldCreationWithMake | tests/Unit/FieldTest.php:51-58 | `make('text', 'field_name', 'Field Label')` succeeds with those type, name and label |
| Scenarios.FieldSettersAndGetters | tests/Unit/FieldTest.php:60-80 | the five setters of the email field are read back by their getters |
| Scenarios.FieldContexts | tests/Unit/FieldTest.php:90-105 | default context `post`, then `term`, `user` and `option` read back after each `setContext` |
| Scenarios.FieldStorageTypes | tests/Unit/FieldTest.php:107-117 | default storage `meta`, and `option` reads back after `setStorageType` |
| Scenarios.MultipleValues | tests/Unit/FieldTest.php:207-215 | a select field is not multiple until `setMultiple(true)` |
| Scenarios.ToArrayConversion | tests/Unit/FieldTest.php:133-151 | the array of the configured text field holds the seven asserted entries |
| Scenarios.InvalidFieldType | tests/Unit/FieldTest.php:153-159 | `make('invalid_type', …)` fails with "Invalid field type: invalid_type" |
| Scenarios.InvalidFieldName | tests/Unit/FieldTest.php:161-167 | `make('text', '123-invalid', …)` fails with "Invalid field name: 123-invalid" |
| Scenarios.FieldValidation | tests/Unit/FieldTest.php:229-241 | required: "" fails and "valid value" passes; optional: "" passes |
| Scenarios.TextSanitizedUnderStub | tests/Unit/FieldTest.php:222 | the stub filter turns the script example into "clean text" |
| Scenarios.TextFieldSanitization | tests/Unit/FieldTest.php:217-222 | a text field sanitizes the script example to "clean text" |
| Scenarios.EmailFieldSanitization | tests/Unit/FieldTest.php:224-226 | an email field keeps "user@example.com" |
| Scenarios.RegisterMultipleFields | tests/Unit/RegistryTest.php:62-75 | two registrations in one container read back as `[field1, field2]` |
| Scenarios.GetAllFieldsPerContainer | tests/Unit/RegistryTest.php:86-103 | each of the two containers holds exactly its one field under its name |
| Scenarios.ContainerLifecycle | tests/Unit/RegistryTest.php:77-155 | exists before and after registration, remove, remove of an absent container, unknown container, and clear |
| Scenarios.AddSectionObjectFoldsDefaults | tests/Unit/OptionsPageTest.php:167-186 | the section is stored and `default_values['test_field']` is "default_value" |
| Scenarios.LoadOptionsOverridesDefault | tests/Unit/OptionsPageTest.php:211-229 | the stored "value1" overrides the default "default1" |
| Scenarios.ActiveTabCases | tests/Unit/OptionsPageTest.php:334-385 | the four asserted active tabs: "section2", "section1", "section1" and "main" |
| Scenarios.SanitizeOptionsFillsUncheckedBox | tests/Unit/OptionsPageTest.php:294-311 | the text field keeps "sanitized text" and the absent checkbox becomes "0" |
| Scenarios.SanitizeOptionsWithCompactInput | tests/Unit/OptionsPageTest.php:315-332 | with an empty plain input, the compact blob supplies "compact_value" |
| Scenarios.MenuPageDispatch | tests/Unit/OptionsPageTest.php:231-267 | the exact submenu and top-level entries the tests expect |
| Scenarios.EnqueueAssetsScreenGuard | tests/Unit/OptionsPageTest.php:387-426 | the page's own screen enqueues the expected script, and a wrong screen enqueues nothing |
| Scenarios.RegisterSettingsCalls | tests/Unit/OptionsPageTest.php:269-292 | the exact setting, section and field calls of the one-field page |
| Scenarios.RegisterHooks | tests/Unit/OptionsPageTest.php:202-209 | the three expected hooks |

## Left out

- The implementation classes are not part of this model. Where the tests leave behaviour open, the model makes a choice, listed here.
  - The tests do not pin down the set of field types. The model recognises `text`, `textarea`, `email`, `url`, `number`, `checkbox`, `select` and `html`: the types the tests use plus the common form types.
  - `make` checks the type before the name.
  - A checkbox value is "1" exactly when the raw string is PHP-truthy, that is neither "" nor "0".
  - A required field rejects a value that PHP `trim` reduces to "". So "0" validates, where a check with PHP `empty()` would reject it.
  - `loadOptions` keeps stored keys that name no field, next to the field defaults.
  - When sanitizing, a field of the active section that is absent from the input, and is not a checkbox, keeps its previous entry. It does not get a sanitized empty value.
  - In compact-input mode, when the blob is missing or holds no sub-map under the option name, the plain input is used.
- Fields.SanitizeValue: `url`, `number`, `textarea`, `select` and `html` fields all go through the safe-HTML filter (`kses`), a choice of the model: every type other than text, email and checkbox keeps safe HTML. The field tests also stub `sanitize_url`, `absint` and `apply_filters`, but no test sanitizes a url or number field. Those stubs are not modelled.
- Rendering (`renderPage`, field `render`, footer markup) is left out. It is HTML templating and output buffering.
- The plugin bootstrap tests (tests/Unit/LibraryBootstrapTest.php, tests/Unit/BootstrapPluginModeTest.php) are left out. They cover global constants and path/URL plumbing through host functions.
- The host's real string filters (`sanitize_text_field`, `sanitize_email`, `wp_kses_post`, `is_email`) are left out. They are parameters (`Sanitizers`). Only the tests' stand-ins are written out.
- HostStubs.StripTags: PHP `strip_tags` is simplified. NUL characters are skipped and a `<` followed by whitespace is kept as text, as in PHP. Any other `<` starts a span that is dropped up to the next `>`, and an unclosed span drops the rest. Quoted `>` inside attributes, comments, `<?` and `<!` sections and the nesting depth of `<` are not modelled.
- Decoding the compact-input JSON blob (RFC 8259) is left out. The decoded object of objects is part of `Request`, and an undecodable blob is `None`.
- Object identity is left out: the registry singleton, `assertSame` on fluent setters, and the same section object shared by a page and its caller. States are values. Shared sections are modelled by `OptionsPages.SectionAddField`, which updates the page's copy.
- `getArgs()` of a field is taken to be its attribute array (`ToArray`). The settings-field render callback and the register-setting sanitize callback are implicit in the call records.
- OptionsPages.EnqueueAssets: the localized data (slug, nonce, AJAX URL) is not modelled, only the object name. No style sheet is enqueued: the test expects only the script and its localization.
- OptionsPages.SanitizeOptions: `wp_unslash` and text sanitizing of the POSTed tab are identity under the tests and are not modelled. How the result is merged into the stored record is the host's choice. The record to merge into is the `previous` parameter, which is empty for "only the active tab's values".
- OptionsPages.ActiveFields: the page's own fields (added with `addField`, outside any section) are not sanitized. The tests sanitize only section fields.
- Integers are unbounded. The menu position and the integers inside validation rules (`MInt`) are the only integers. Both are stored and passed on unchanged, and nothing computes with them.
- The order of the arrays modelled as Dafny `map`s (listed above) is not modelled, because no test reads it.

=== FILE: field.dfy ===
/** A Field: an immutable typed, named value descriptor with display
    metadata, a required-ness check and a per-type sanitizer. */
module Fields {
  import opened Wrappers
  import opened Text
  import opened OrderedMap

  /** A PHP value as it appears in rule maps, conditional-logic rules and in
      the flattened attribute array. */
  datatype Mixed =
    | MNull
    | MBool(b: bool)
    | MInt(i: int)
    | MStr(s: string)
    | MArray(entries: seq<(string, Mixed)>)

  /** The closed set of field kinds `make` accepts. */
  const FieldTypes: set<string> :=
    {"text", "textarea", "email", "url", "number", "checkbox", "select", "html"}

  /** The only error of this core, raised by construction. */
  datatype FieldError = InvalidArgument(message: string)

  /** Type, name and label are fixed at construction. Every other attribute
      is None until its setter is called: `toArray` emits exactly the ones
      that were set, and the getters read the unset ones as their defaults. */
  datatype Field = Field(
    fieldType: string,
    name: string,
    labelText: string,
    defaultValue: Option<string>,
    placeholder: Option<string>,
    required: Option<bool>,
    help: Option<string>,
    html: Option<string>,
    context: Option<string>,
    storageType: Option<string>,
    options: Option<seq<(string, string)>>,
    multiple: Option<bool>,
    validation: Option<seq<(string, Mixed)>>,
    conditionalLogic: Option<seq<(string, Mixed)>>)

  // Getters of the attributes that have a default.

  function IsRequired(f: Field): bool { f.required.GetOr(false) }
  function GetContext(f: Field): string { f.context.GetOr("post") }
  function GetStorageType(f: Field): string { f.storageType.GetOr("meta") }
  function GetOptions(f: Field): seq<(string, string)> { f.options.GetOr([]) }
  function IsMultiple(f: Field): bool { f.multiple.GetOr(false) }
  function GetValidation(f: Field): seq<(string, Mixed)> { f.validation.GetOr([]) }
  function GetConditionalLogic(f: Field): seq<(string, Mixed)> { f.conditionalLogic.GetOr([]) }

  /** The host's string filters, which this core calls but does not define. */
  datatype Sanitizers = Sanitizers(
    text: string -> string,
    email: string -> string,
    kses: string -> string)

  /** The identifier pattern: an ASCII letter, then letters, digits or underscores. */
  predicate IsValidName(n: string) {
    && |n| > 0
    && IsAsciiLetter(n[0])
    && forall i :: 1 <= i < |n| ==> IsWordChar(n[i])
  }

  /** `Field::make($type, $name, $label)`: checks the type, then the name. */
  function Make(t: string, n: string, l: string): (r: Result<Field, FieldError>)
    ensures r.Success? <==> t in FieldTypes && IsValidName(n)
    ensures t !in FieldTypes ==> r == Failure(InvalidArgument("Invalid field type: " + t))
    ensures t in FieldTypes && !IsValidName(n) ==>
              r == Failure(InvalidArgument("Invalid field name: " + n))
    ensures r.Success? ==> r.value.fieldType == t && r.value.name == n && r.value.labelText == l
    ensures r.Success? ==> GetContext(r.value) == "post" && GetStorageType(r.value) == "meta"
    ensures r.Success? ==> !IsMultiple(r.value) && !IsRequired(r.value)
    ensures r.Success? ==> forall k :: !IsSet(r.value, k)
  {
    if t !in FieldTypes then Failure(InvalidArgument("Invalid field type: " + t))
    else if !IsValidName(n) then Failure(InvalidArgument("Invalid field name: " + n))
    else Success(Field(t, n, l, None, None, None, None, None, None, None, None, None, None, None))
  }

  // Fluent setters. Each marks its attribute as set, stores its argument for
  // the matching getter and changes no other attribute.

  function SetDefault(f: Field, v: string): (r: Field)
    ensures r.defaultValue == Some(v) && IsSet(r, KDefault)
    ensures r.(defaultValue := f.defaultValue) == f
  {
    f.(defaultValue := Some(v))
  }

  function SetPlaceholder(f: Field, v: string): (r: Field)
    ensures r.placeholder == Some(v) && IsSet(r, KPlaceholder)
    ensures r.(placeholder := f.placeholder) == f
  {
    f.(placeholder := Some(v))
  }

  function SetRequired(f: Field, v: bool): (r: Field)
    ensures IsRequired(r) == v && IsSet(r, KRequired)
    ensures r.(required := f.required) == f
  {
    f.(required := Some(v))
  }

  function SetHelp(f: Field, v: string): (r: Field)
    ensures r.help == Some(v) && IsSet(r, KHelp)
    ensures r.(help := f.help) == f
  {
    f.(help := Some(v))
  }

  function SetHtml(f: Field, v: string): (r: Field)
    ensures r.html == Some(v) && IsSet(r, KHtml)
    ensures r.(html := f.html) == f
  {
    f.(html := Some(v))
  }

  /** `setHtmlContent` is another name for `setHtml`. */
  function SetHtmlContent(f: Field, v: string): (r: Field)
    ensures r == SetHtml(f, v)
    ensures r.html == Some(v)
  {
    SetHtml(f, v)
  }

  function SetContext(f: Field, v: string): (r: Field)
    ensures GetContext(r) == v && IsSet(r, KContext)
    ensures r.(context := f.context) == f
  {
    f.(context := Some(v))
  }

  function SetStorageType(f: Field, v: string): (r: Field)
    ensures GetStorageType(r) == v && IsSet(r, KStorageType)
    ensures r.(storageType := f.storageType) == f
  {
    f.(storageType := Some(v))
  }

  function SetOptions(f: Field, v: seq<(string, string)>): (r: Field)
    ensures GetOptions(r) == v && IsSet(r, KOptions)
    ensures r.(options := f.options) == f
  {
    f.(options := Some(v))
  }

  function SetMultiple(f: Field, v: bool): (r: Field)
    ensures IsMultiple(r) == v && IsSet(r, KMultiple)
    ensures r.(multiple := f.multiple) == f
  {
    f.(multiple := Some(v))
  }

  function SetValidation(f: Field, v: seq<(string, Mixed)>): (r: Field)
    ensures GetValidation(r) == v && IsSet(r, KValidation)
    ensures r.(validation := f.validation) == f
  {
    f.(validation := Some(v))
  }

  function SetConditionalLogic(f: Field, v: seq<(string, Mixed)>): (r: Field)
    ensures GetConditionalLogic(r) == v && IsSet(r, KConditionalLogic)
    ensures r.(conditionalLogic := f.conditionalLogic) == f
  {
    f.(conditionalLogic := Some(v))
  }

  // ---- toArray ----

  /** The keys of the flattened attribute array. Each stands for the PHP key
      spelled as in the field's attribute: `type`, `name`, `label`,
      `default`, `required`, `placeholder`, `help`, `html`, `context`,
      `storage_type`, `options`, `multiple`, `validation`, `conditional_logic`. */
  datatype Key =
    | KType | KName | KLabel | KDefault | KRequired | KPlaceholder | KHelp | KHtml
    | KContext | KStorageType | KOptions | KMultiple | KValidation | KConditionalLogic

  function OptionsToMixed(o: seq<(string, string)>): (e: seq<(string, Mixed)>)
    ensures |e| == |o|
    ensures forall i :: 0 <= i < |o| ==> e[i] == (o[i].0, MStr(o[i].1))
  {
    seq(|o|, i requires 0 <= i < |o| => (o[i].0, MStr(o[i].1)))
  }

  /** Whether the attribute under `k` was explicitly set. */
  predicate IsSet(f: Field, k: Key) {
    match k
    case KType => false
    case KName => false
    case KLabel => false
    case KDefault => f.defaultValue.Some?
    case KRequired => f.required.Some?
    case KPlaceholder => f.placeholder.Some?
    case KHelp => f.help.Some?
    case KHtml => f.html.Some?
    case KContext => f.context.Some?
    case KStorageType => f.storageType.Some?
    case KOptions => f.options.Some?
    case KMultiple => f.multiple.Some?
    case KValidation => f.validation.Some?
    case KConditionalLogic => f.conditionalLogic.Some?
  }

  /** Type, name and label are always emitted; every other key only when set. */
  predicate Emits(f: Field, k: Key) {
    k == KType || k == KName || k == KLabel || IsSet(f, k)
  }

  /** The value stored under `k`: the attribute as set (or its default when unset). */
  function Attribute(f: Field, k: Key): Mixed {
    match k
    case KType => MStr(f.fieldType)
    case KName => MStr(f.name)
    case KLabel => MStr(f.labelText)
    case KDefault => MStr(f.defaultValue.GetOr(""))
    case KRequired => MBool(IsRequired(f))
    case KPlaceholder => MStr(f.placeholder.GetOr(""))
    case KHelp => MStr(f.help.GetOr(""))
    case KHtml => MStr(f.html.GetOr(""))
    case KContext => MStr(GetContext(f))
    case KStorageType => MStr(GetStorageType(f))
    case KOptions => MArray(OptionsToMixed(GetOptions(f)))
    case KMultiple => MBool(IsMultiple(f))
    case KValidation => MArray(GetValidation(f))
    case KConditionalLogic => MArray(GetConditionalLogic(f))
  }

  /** The attributes `f` emits, each with its value. */
  function Emitted(f: Field): map<Key, Mixed> {
    map k: Key | Emits(f, k) :: Attribute(f, k)
  }

  lemma EmittedKeys(f: Field)
    ensures KType in Emitted(f) && Emitted(f)[KType] == MStr(f.fieldType)
    ensures KName in Emitted(f) && Emitted(f)[KName] == MStr(f.name)
    ensures KLabel in Emitted(f) && Emitted(f)[KLabel] == MStr(f.labelText)
    ensures forall k :: k in Emitted(f) <==> Emits(f, k)
  {
  }

  lemma EmittedValues(f: Field)
    ensures f.defaultValue.Some? ==> KDefault in Emitted(f) && Emitted(f)[KDefault] == MStr(f.defaultValue.value)
    ensures f.required.Some? ==> KRequired in Emitted(f) && Emitted(f)[KRequired] == MBool(f.required.value)
    ensures f.placeholder.Some? ==> KPlaceholder in Emitted(f) && Emitted(f)[KPlaceholder] == MStr(f.placeholder.value)
    ensures f.help.Some? ==> KHelp in Emitted(f) && Emitted(f)[KHelp] == MStr(f.help.value)
    ensures f.html.Some? ==> KHtml in Emitted(f) && Emitted(f)[KHtml] == MStr(f.html.value)
    ensures f.context.Some? ==> KContext in Emitted(f) && Emitted(f)[KContext] == MStr(f.context.value)
    ensures f.storageType.Some? ==> KStorageType in Emitted(f) && Emitted(f)[KStorageType] == MStr(f.storageType.value)
    ensures f.options.Some? ==> KOptions in Emitted(f) && Emitted(f)[KOptions] == MArray(OptionsToMixed(f.options.value))
    ensures f.multiple.Some? ==> KMultiple in Emitted(f) && Emitted(f)[KMultiple] == MBool(f.multiple.value)
    ensures f.validation.Some? ==> KValidation in Emitted(f) && Emitted(f)[KValidation] == MArray(f.validation.value)
    ensures f.conditionalLogic.Some? ==> KConditionalLogic in Emitted(f) && Emitted(f)[KConditionalLogic] == MArray(f.conditionalLogic.value)
  {
  }

  /** `toArray()`: the field flattened to an attribute array: type, name and
      label always, every other attribute exactly when it was set, each
      holding the value set. */
  function ToArray(f: Field): (a: map<Key, Mixed>)
    ensures KType in a && a[KType] == MStr(f.fieldType)
    ensures KName in a && a[KName] == MStr(f.name)
    ensures KLabel in a && a[KLabel] == MStr(f.labelText)
    ensures forall k :: k in a <==> Emits(f, k)
    ensures f.defaultValue.Some? ==> KDefault in a && a[KDefault] == MStr(f.defaultValue.value)
    ensures f.required.Some? ==> KRequired in a && a[KRequired] == MBool(f.required.value)
    ensures f.placeholder.Some? ==> KPlaceholder in a && a[KPlaceholder] == MStr(f.placeholder.value)
    ensures f.help.Some? ==> KHelp in a && a[KHelp] == MStr(f.help.value)
    ensures f.html.Some? ==> KHtml in a && a[KHtml] == MStr(f.html.value)
    ensures f.context.Some? ==> KContext in a && a[KContext] == MStr(f.context.value)
    ensures f.storageType.Some? ==> KStorageType in a && a[KStorageType] == MStr(f.storageType.value)
    ensures f.options.Some? ==> KOptions in a && a[KOptions] == MArray(OptionsToMixed(f.options.value))
    ensures f.multiple.Some? ==> KMultiple in a && a[KMultiple] == MBool(f.multiple.value)
    ensures f.validation.Some? ==> KValidation in a && a[KValidation] == MArray(f.validation.value)
    ensures f.conditionalLogic.Some? ==> KConditionalLogic in a && a[KConditionalLogic] == MArray(f.conditionalLogic.value)
  {
    EmittedKeys(f);
    EmittedValues(f);
    Emitted(f)
  }

  // ---- reading a flattened field back (the partner of ToArray) ----

  function TextAt(a: map<Key, Mixed>, k: Key): Option<string> {
    if k in a && a[k].MStr? then Some(a[k].s) else None
  }

  function FlagAt(a: map<Key, Mixed>, k: Key): Option<bool> {
    if k in a && a[k].MBool? then Some(a[k].b) else None
  }

  function ListAt(a: map<Key, Mixed>, k: Key): Option<seq<(string, Mixed)>> {
    if k in a && a[k].MArray? then Some(a[k].entries) else None
  }

  function MixedToOptions(e: seq<(string, Mixed)>): seq<(string, string)> {
    seq(|e|, i requires 0 <= i < |e| => (e[i].0, if e[i].1.MStr? then e[i].1.s else ""))
  }

  /** Rebuilds a field from its attribute array; None when type, name or label is missing. */
  function FromArray(a: map<Key, Mixed>): Option<Field> {
    if TextAt(a, KType).Some? && TextAt(a, KName).Some? && TextAt(a, KLabel).Some? then
      var options := ListAt(a, KOptions);
      Some(Field(
        TextAt(a, KType).value, TextAt(a, KName).value, TextAt(a, KLabel).value,
        TextAt(a, KDefault), TextAt(a, KPlaceholder), FlagAt(a, KRequired),
        TextAt(a, KHelp), TextAt(a, KHtml),
        TextAt(a, KContext), TextAt(a, KStorageType),
        if options.Some? then Some(MixedToOptions(options.value)) else None,
        FlagAt(a, KMultiple), ListAt(a, KValidation), ListAt(a, KConditionalLogic)))
    else None
  }

  /** Flattening loses nothing: every attribute, and whether it was set, is
      recovered from the array. */
  lemma ToArrayRoundTrip(f: Field)
    ensures FromArray(ToArray(f)) == Some(f)
  {
    ReadBackIdentity(f);
    ReadBackTexts(f);
    ReadBackFlags(f);
    ReadBackLists(f);
  }

  lemma ReadBackIdentity(f: Field)
    ensures var a := ToArray(f);
            TextAt(a, KType) == Some(f.fieldType) && TextAt(a, KName) == Some(f.name)
            && TextAt(a, KLabel) == Some(f.labelText)
  {
  }

  lemma ReadBackTexts(f: Field)
    ensures var a := ToArray(f);
            && TextAt(a, KDefault) == f.defaultValue && TextAt(a, KPlaceholder) == f.placeholder
            && TextAt(a, KHelp) == f.help && TextAt(a, KHtml) == f.html
            && TextAt(a, KContext) == f.context && TextAt(a, KStorageType) == f.storageType
  {
    ReadBackInputTexts(f);
    ReadBackHelpTexts(f);
    ReadBackPlacementTexts(f);
  }

  lemma ReadBackInputTexts(f: Field)
    ensures var a := ToArray(f);
            TextAt(a, KDefault) == f.defaultValue && TextAt(a, KPlaceholder) == f.placeholder
  {
  }

  lemma ReadBackHelpTexts(f: Field)
    ensures var a := ToArray(f);
            TextAt(a, KHelp) == f.help && TextAt(a, KHtml) == f.html
  {
  }

  lemma ReadBackPlacementTexts(f: Field)
    ensures var a := ToArray(f);
            TextAt(a, KContext) == f.context && TextAt(a, KStorageType) == f.storageType
  {
  }

  lemma ReadBackFlags(f: Field)
    ensures var a := ToArray(f);
            FlagAt(a, KRequired) == f.required && FlagAt(a, KMultiple) == f.multiple
  {
  }

  lemma ReadBackLists(f: Field)
    ensures var a := ToArray(f);
            && ListAt(a, KValidation) == f.validation && ListAt(a, KConditionalLogic) == f.conditionalLogic
            && (if ListAt(a, KOptions).Some? then Some(MixedToOptions(ListAt(a, KOptions).value)) else None)
               == f.options
  {
    ReadBackRules(f);
    ReadBackOptions(f);
  }

  lemma ReadBackRules(f: Field)
    ensures var a := ToArray(f);
            ListAt(a, KValidation) == f.validation && ListAt(a, KConditionalLogic) == f.conditionalLogic
  {
  }

  lemma ReadBackOptions(f: Field)
    ensures var a := ToArray(f);
            (if ListAt(a, KOptions).Some? then Some(MixedToOptions(ListAt(a, KOptions).value)) else None)
            == f.options
  {
    var a := ToArray(f);
    if f.options.Some? {
      assert ListAt(a, KOptions) == Some(OptionsToMixed(f.options.value));
      assert MixedToOptions(OptionsToMixed(f.options.value)) == f.options.value;
    } else {
      assert KOptions !in a;
    }
  }

  /** A freshly made field flattens to exactly its type, name and label. */
  lemma FreshFieldArray(t: string, n: string, l: string)
    requires Make(t, n, l).Success?
    ensures ToArray(Make(t, n, l).value) == map[KType := MStr(t), KName := MStr(n), KLabel := MStr(l)]
  {
  }

  // ---- validation and sanitization ----

  /** `validateValue($v)`: a required field rejects a blank value; an
      optional field accepts everything. */
  function ValidateValue(f: Field, v: string): (ok: bool)
    ensures ok <==> !IsRequired(f) || !AllSpace(v)
  {
    TrimEmptyIff(v);
    !IsRequired(f) || Trim(v) != []
  }

  /** PHP truthiness of a string: only "" and "0" are false. */
  predicate IsTruthy(s: string) {
    s != "" && s != "0"
  }

  /** `sanitizeValue($raw)`: text and email go through the host's filters,
      a checkbox normalises to "1"/"0", every other kind keeps safe HTML. */
  function SanitizeValue(f: Field, raw: string, host: Sanitizers): (r: string)
    ensures f.fieldType == "checkbox" ==> (r == "0" || r == "1") && (r == "1" <==> IsTruthy(raw))
    ensures f.fieldType == "text" ==> r == host.text(raw)
    ensures f.fieldType == "email" ==> r == host.email(raw)
    ensures f.fieldType !in {"text", "email", "checkbox"} ==> r == host.kses(raw)
  {
    if f.fieldType == "text" then host.text(raw)
    else if f.fieldType == "email" then host.email(raw)
    else if f.fieldType == "checkbox" then (if IsTruthy(raw) then "1" else "0")
    else host.kses(raw)
  }

  // ---- collections of fields keyed by name ----

  /** An ordered field collection keyed by each field's own name. */
  predicate KeyedByName(m: OMap<Field>) {
    && UniqueKeys(m)
    && forall i :: 0 <= i < |m| ==> m[i].0 == m[i].1.name
  }

  type FieldMap = m: OMap<Field> | KeyedByName(m) witness []

  /** Adds `f` under its name: a new name is appended, a known one replaced in place. */
  function AddByName(m: FieldMap, f: Field): (r: FieldMap)
    ensures Get(r, f.name) == Some(f)
    ensures forall n :: n != f.name ==> Get(r, n) == Get(m, n)
    ensures f.name in Keys(m) ==> Keys(r) == Keys(m)
    ensures f.name !in Keys(m) ==> Keys(r) == Keys(m) + [f.name]
    ensures f.name !in Keys(m) ==> Values(r) == Values(m) + [f]
  {
    var r := Put(m, f.name, f);
    assert f.name !in Keys(m) ==> r == m + [(f.name, f)] by {
      if f.name !in Keys(m) {
        assert |r| == |m| + 1;
        assert r[|m|] == (f.name, f) by { assert Keys(r)[|m|] == f.name; }
      }
    }
    r
  }
}

=== FILE: host_stubs.dfy ===
/** The stand-ins the unit tests install for the host's string filters
    (tests/Unit/FieldTest.php lines 24-40), written out so that the
    sanitizer examples of the tests can be stated about them. */
module HostStubs {
  import opened Wrappers
  import opened Text
  import opened Fields

  // ---- the text stub: drop script elements, strip tags, trim ----

  /** `pat` (lower case) occurs at position `at` of `s`, ignoring ASCII case. */
  predicate OccursAtCI(s: string, at: nat, pat: string) {
    at + |pat| <= |s| && Lower(s[at..at + |pat|]) == pat
  }

  /** The first position at or after `from` holding `c`. */
  function FindChar(s: string, c: char, from: nat): (r: Option<nat>)
    decreases |s| - from
    ensures r.Some? ==> from <= r.value < |s| && s[r.value] == c
    ensures r.Some? ==> forall j :: from <= j < r.value ==> s[j] != c
    ensures r.None? ==> forall j :: from <= j < |s| ==> s[j] != c
  {
    if from >= |s| then None
    else if s[from] == c then Some(from)
    else FindChar(s, c, from + 1)
  }

  /** The first position at or after `from` where a closing script tag starts. */
  function FindScriptClose(s: string, from: nat): (r: Option<nat>)
    decreases |s| - from
    ensures r.Some? ==> from <= r.value && OccursAtCI(s, r.value, "</script>")
    ensures r.Some? ==> forall j :: from <= j < r.value ==> !OccursAtCI(s, j, "</script>")
    ensures r.None? ==> forall j :: from <= j <= |s| - 9 ==> !OccursAtCI(s, j, "</script>")
  {
    if from + 9 > |s| then None
    else if OccursAtCI(s, from, "</script>") then Some(from)
    else FindScriptClose(s, from + 1)
  }

  /** A closing tag preceded by no `<` since `from` is the one found. */
  lemma {:induction false} FindScriptCloseAt(s: string, from: nat, e: nat)
    requires from <= e && OccursAtCI(s, e, "</script>")
    requires forall j :: from <= j < e ==> s[j] != '<'
    ensures FindScriptClose(s, from) == Some(e)
    decreases e - from
  {
    if from < e {
      assert Lower(s[from..from + 9])[0] == LowerChar(s[from]);
      assert !OccursAtCI(s, from, "</script>");
      FindScriptCloseAt(s, from + 1, e);
    }
  }

  /** The length of a match of `<script\b[^>]*>(.*?)</script>` (case-insensitive,
      dot matching newlines) at the start of `s`, if there is one. Since `[^>]*`
      cannot cross a `>`, the opening tag ends at the first `>`; the lazy body
      ends at the first closing tag after it. */
  function ScriptMatch(s: string): (r: Option<nat>)
    ensures r.Some? ==> 0 < r.value <= |s| && s[0] == '<'
  {
    if OccursAtCI(s, 0, "<script") && |s| > 7 && !IsWordChar(s[7]) then
      assert Lower(s[0..7])[0] == LowerChar(s[0]);
      match FindChar(s, '>', 7)
      case None => None
      case Some(j) =>
        match FindScriptClose(s, j + 1)
        case None => None
        case Some(e) => Some(e + 9)
    else None
  }

  /** `preg_replace` of the script pattern by the empty string, scanning left to right. */
  function RemoveScripts(s: string): (r: string)
    decreases |s|
    ensures |r| <= |s|
    ensures '<' !in s ==> r == s
  {
    if s == [] then []
    else
      match ScriptMatch(s)
      case Some(n) => RemoveScripts(s[n..])
      case None =>
        assert '<' !in s ==> '<' !in s[1..] by {
          assert forall i :: 0 <= i < |s[1..]| ==> s[1..][i] == s[i + 1];
        }
        assert s == [s[0]] + s[1..];
        [s[0]] + RemoveScripts(s[1..])
  }

  /** Every `<` of `s` is followed by whitespace: `strip_tags` keeps exactly such a `<`. */
  predicate LtsSpaced(s: string) {
    forall i :: 0 <= i < |s| && s[i] == '<' ==> i + 1 < |s| && IsCSpace(s[i + 1])
  }

  /** Every `<` of `s` is followed by whitespace or is its last character. */
  predicate LtsSpacedOrLast(s: string) {
    forall i :: 0 <= i < |s| && s[i] == '<' ==> i + 1 == |s| || IsCSpace(s[i + 1])
  }

  /** The characters of `s` other than NUL, in order. */
  function DropNuls(s: string): (r: string)
    decreases |s|
    ensures '\0' !in r
    ensures |r| <= |s|
  {
    if s == [] then []
    else if s[0] == '\0' then DropNuls(s[1..])
    else [s[0]] + DropNuls(s[1..])
  }

  lemma {:induction false} DropNulsWithoutNul(s: string)
    requires '\0' !in s
    ensures DropNuls(s) == s
    decreases |s|
  {
    if s != [] {
      DropNulsWithoutNul(s[1..]);
      assert s == [s[0]] + s[1..];
    }
  }

  /** Dropping NULs from a concatenation drops them from each part. */
  lemma {:induction false} DropNulsAppend(a: string, b: string)
    ensures DropNuls(a + b) == DropNuls(a) + DropNuls(b)
    decreases |a|
  {
    if a == [] {
      assert a + b == b;
    } else {
      assert (a + b)[1..] == a[1..] + b;
      DropNulsAppend(a[1..], b);
    }
  }

  /** Dropping NULs keeps a first and a last character that are not NUL. */
  lemma DropNulsKeepsEnds(t: string)
    requires t != [] && t[0] != '\0' && t[|t| - 1] != '\0'
    ensures var d := DropNuls(t);
            d != [] && d[0] == t[0] && d[|d| - 1] == t[|t| - 1]
  {
    var c := t[|t| - 1];
    assert t == t[..|t| - 1] + [c];
    DropNulsAppend(t[..|t| - 1], [c]);
    assert DropNuls([c]) == [c];
  }

  /** `strip_tags`, simplified: NUL characters are skipped; a `<` followed by
      whitespace is kept as text; any other `<` opens a tag that runs to the
      next `>` and is dropped, and an unclosed tag drops the rest of the string. */
  function StripTags(s: string): (r: string)
    decreases |s|
    ensures LtsSpaced(r)
    ensures '\0' !in r
  {
    if s == [] then []
    else if s[0] == '\0' then StripTags(s[1..])
    else if s[0] == '<' && |s| > 1 && IsCSpace(s[1]) then
      var t := StripTags(s[1..]);
      assert t == [s[1]] + StripTags(s[2..]) by {
        assert s[1..][0] == s[1] && s[1..][1..] == s[2..];
      }
      [s[0]] + t
    else if s[0] == '<' then
      match FindChar(s, '>', 0)
      case None => []
      case Some(j) => StripTags(s[j + 1..])
    else [s[0]] + StripTags(s[1..])
  }

  /** The test's `sanitize_text_field`. No NUL survives it, and a `<` survives only
      as text: followed by whitespace, or as the last character once trailing
      whitespace is trimmed. */
  function StubSanitizeText(s: string): (r: string)
    ensures LtsSpacedOrLast(r)
    ensures '\0' !in r
    ensures r == [] || (!IsTrimSpace(r[0]) && !IsTrimSpace(r[|r| - 1]))
  {
    var stripped := StripTags(RemoveScripts(s));
    TrimKeepsSpacing(stripped);
    TrimKeepsAbsentChar(stripped, '\0');
    Trim(stripped)
  }

  /** Trimming a string whose every `<` is followed by whitespace can only
      strand a `<` at the end. */
  lemma TrimKeepsSpacing(s: string)
    requires LtsSpaced(s)
    ensures LtsSpacedOrLast(Trim(s))
  {
    var l := TrimLeft(s);
    SpacedSuffix(s, |s| - |l|);
    SpacedPrefix(l, |TrimRight(l)|);
  }

  lemma SpacedSuffix(s: string, k: nat)
    requires LtsSpaced(s) && k <= |s|
    ensures LtsSpaced(s[k..])
  {
    var t := s[k..];
    forall i | 0 <= i < |t| && t[i] == '<'
      ensures i + 1 < |t| && IsCSpace(t[i + 1])
    {
      assert s[k + i] == '<';
    }
  }

  lemma SpacedPrefix(s: string, m: nat)
    requires LtsSpaced(s) && m <= |s|
    ensures LtsSpacedOrLast(s[..m])
  {
    var t := s[..m];
    forall i | 0 <= i < |t| && t[i] == '<'
      ensures i + 1 == |t| || IsCSpace(t[i + 1])
    {
      assert s[i] == '<';
    }
  }

  /** Tag-free text only loses its NULs. */
  lemma {:induction false} StripTagsWithoutTags(s: string)
    requires '<' !in s
    ensures StripTags(s) == DropNuls(s)
    decreases |s|
  {
    if s != [] {
      assert s[0] != '<';
      assert '<' !in s[1..] by {
        assert forall i :: 0 <= i < |s[1..]| ==> s[1..][i] == s[i + 1];
      }
      StripTagsWithoutTags(s[1..]);
    }
  }

  /** A script element starts with `<` and a letter. */
  lemma ScriptOpener(s: string)
    ensures OccursAtCI(s, 0, "<script") ==> s[0] == '<' && !IsCSpace(s[1])
  {
    if OccursAtCI(s, 0, "<script") {
      assert Lower(s[0..7])[0] == LowerChar(s[0]);
      assert Lower(s[0..7])[1] == LowerChar(s[1]);
    }
  }

  /** No script element starts at a `<` followed by whitespace, so such text
      passes the script removal unchanged. */
  lemma {:induction false} RemoveScriptsKeepsSpaced(s: string)
    requires LtsSpacedOrLast(s)
    ensures RemoveScripts(s) == s
    decreases |s|
  {
    if s != [] {
      ScriptOpener(s);
      assert ScriptMatch(s).None?;
      assert LtsSpacedOrLast(s[1..]) by {
        forall i | 0 <= i < |s[1..]| && s[1..][i] == '<'
          ensures i + 1 == |s[1..]| || IsCSpace(s[1..][i + 1])
        {
          assert s[i + 1] == '<';
        }
      }
      RemoveScriptsKeepsSpaced(s[1..]);
      assert s == [s[0]] + s[1..];
    }
  }

  /** `strip_tags` keeps text whose every `<` is followed by whitespace, NULs apart. */
  lemma {:induction false} StripTagsKeepsSpaced(s: string)
    requires LtsSpaced(s)
    ensures StripTags(s) == DropNuls(s)
    decreases |s|
  {
    if s != [] {
      assert LtsSpaced(s[1..]) by {
        forall i | 0 <= i < |s[1..]| && s[1..][i] == '<'
          ensures i + 1 < |s[1..]| && IsCSpace(s[1..][i + 1])
        {
          assert s[i + 1] == '<';
        }
      }
      StripTagsKeepsSpaced(s[1..]);
    }
  }

  /** A final `<` after such text opens a tag that never closes: it is dropped. */
  lemma {:induction false} StripTagsDropsFinalLt(u: string)
    requires LtsSpaced(u)
    ensures StripTags(u + ['<']) == DropNuls(u)
    decreases |u|
  {
    var s := u + ['<'];
    if u == [] {
      assert s == ['<'];
      assert FindChar(s, '>', 0).None?;
    } else {
      assert s[1..] == u[1..] + ['<'];
      assert LtsSpaced(u[1..]) by {
        forall i | 0 <= i < |u[1..]| && u[1..][i] == '<'
          ensures i + 1 < |u[1..]| && IsCSpace(u[1..][i + 1])
        {
          assert u[i + 1] == '<';
        }
      }
      StripTagsDropsFinalLt(u[1..]);
      if u[0] == '<' {
        assert s[1] == u[1];
      }
    }
  }

  /** A closed tag, `<` then a non-space and up to the first `>`, is dropped whole. */
  lemma StripTagsDropsTag(t: string, v: string)
    requires '>' !in t && (t == [] || !IsCSpace(t[0]))
    ensures StripTags(['<'] + t + ['>'] + v) == StripTags(v)
  {
    var s := ['<'] + t + ['>'] + v;
    assert s[0] == '<';
    assert !IsCSpace(s[1]) by {
      if t == [] { assert s[1] == '>'; } else { assert s[1] == t[0]; }
    }
    assert s[|t| + 1] == '>';
    assert forall i :: 0 <= i < |t| + 1 ==> s[i] != '>' by {
      assert forall i :: 1 <= i < |t| + 1 ==> s[i] == t[i - 1];
    }
    assert FindChar(s, '>', 0) == Some(|t| + 1);
    assert s[|t| + 2..] == v;
  }

  /** Tag-free text before a closed tag keeps its characters but its NULs, and
      the tag is dropped. */
  lemma {:induction false} StripTagsTextThenTag(u: string, t: string, v: string)
    requires '<' !in u && '>' !in t && (t == [] || !IsCSpace(t[0]))
    ensures StripTags(u + (['<'] + t + ['>'] + v)) == DropNuls(u) + StripTags(v)
    decreases |u|
  {
    var w := ['<'] + t + ['>'] + v;
    if u == [] {
      assert u + w == w;
      StripTagsDropsTag(t, v);
    } else {
      assert (u + w)[0] == u[0] && u[0] != '<';
      assert (u + w)[1..] == u[1..] + w;
      assert '<' !in u[1..] by {
        assert forall i :: 0 <= i < |u[1..]| ==> u[1..][i] == u[i + 1];
      }
      StripTagsTextThenTag(u[1..], t, v);
    }
  }

  /** Filtering the filter's result again changes nothing exactly when that
      result does not end in `<`: a final `<` reads as an unclosed tag. */
  lemma StubSanitizeTextIdempotentIff(s: string)
    ensures var y := StubSanitizeText(s);
            StubSanitizeText(y) == y <==> y == [] || y[|y| - 1] != '<'
  {
    var y := StubSanitizeText(s);
    if y == [] || y[|y| - 1] != '<' {
      FilteredWithoutFinalLt(y);
    } else {
      FilteredWithFinalLt(y);
    }
  }

  lemma FilteredWithoutFinalLt(y: string)
    requires LtsSpacedOrLast(y) && '\0' !in y
    requires y == [] || (!IsTrimSpace(y[0]) && !IsTrimSpace(y[|y| - 1]))
    requires y == [] || y[|y| - 1] != '<'
    ensures StubSanitizeText(y) == y
  {
    RemoveScriptsKeepsSpaced(y);
    assert LtsSpaced(y);
    StripTagsKeepsSpaced(y);
    DropNulsWithoutNul(y);
    TrimOfTrimmed(y);
  }

  lemma FilteredWithFinalLt(y: string)
    requires LtsSpacedOrLast(y) && '\0' !in y
    requires y != [] && y[|y| - 1] == '<'
    ensures StubSanitizeText(y) != y
  {
    var u := y[..|y| - 1];
    assert y == u + ['<'];
    AllButFinalLt(y);
    SanitizeFinalLt(u);
    DropNulsWithoutNul(u);
    assert |Trim(u)| <= |u| < |y|;
  }

  lemma AllButFinalLt(y: string)
    requires LtsSpacedOrLast(y) && '\0' !in y
    requires y != [] && y[|y| - 1] == '<'
    ensures LtsSpaced(y[..|y| - 1]) && '\0' !in y[..|y| - 1]
  {
    var u := y[..|y| - 1];
    forall i | 0 <= i < |u| && u[i] == '<'
      ensures i + 1 < |u| && IsCSpace(u[i + 1])
    {
      assert y[i] == '<';
      assert IsCSpace(y[i + 1]);
      assert i + 1 < |u|;
      assert u[i + 1] == y[i + 1];
    }
    assert forall i :: 0 <= i < |u| ==> u[i] == y[i];
  }

  /** Text whose every `<` is followed by whitespace only loses its NULs and is trimmed. */
  lemma SanitizeSpaced(s: string)
    requires LtsSpaced(s)
    ensures StubSanitizeText(s) == Trim(DropNuls(s))
  {
    RemoveScriptsKeepsSpaced(s);
    StripTagsKeepsSpaced(s);
  }

  /** Such text followed by a final `<` loses the `<` and its NULs, and is trimmed. */
  lemma SanitizeFinalLt(u: string)
    requires LtsSpaced(u)
    ensures StubSanitizeText(u + ['<']) == Trim(DropNuls(u))
  {
    assert LtsSpacedOrLast(u + ['<']) by {
      forall i | 0 <= i < |u| + 1 && (u + ['<'])[i] == '<'
        ensures i + 1 == |u| + 1 || IsCSpace((u + ['<'])[i + 1])
      {
        if i < |u| {
          assert u[i] == '<';
        }
      }
    }
    RemoveScriptsKeepsSpaced(u + ['<']);
    StripTagsDropsFinalLt(u);
  }

  lemma TrimSpacedLt(x: char)
    requires !IsTrimSpace(x)
    ensures Trim([x, ' ', '<', ' ']) == [x, ' ', '<']
  {
    var s := [x, ' ', '<', ' '];
    assert TrimLeft(s) == s;
    assert TrimRight(s) == [x, ' ', '<'] by {
      assert s[..3] == [x, ' ', '<'];
      assert TrimRight(s[..3]) == s[..3];
    }
  }

  lemma TrimSpaced(x: char)
    requires !IsTrimSpace(x)
    ensures Trim([x, ' ']) == [x]
  {
    var s := [x, ' '];
    assert TrimLeft(s) == s;
    assert TrimRight(s) == [x] by {
      assert s[..1] == [x];
      assert TrimRight(s[..1]) == s[..1];
    }
  }

  /** A `<` followed by a space survives once, then is trimmed to the end and
      dropped the second time: with `x` = 'a', "a < " filters to "a <", which
      filters to "a". */
  lemma StubSanitizeTextNotIdempotent(x: char)
    requires x != '<' && !IsTrimSpace(x)
    ensures StubSanitizeText([x, ' ', '<', ' ']) == [x, ' ', '<']
    ensures StubSanitizeText([x, ' ', '<']) == [x]
  {
    var s := [x, ' ', '<', ' '];
    assert LtsSpaced(s) && '\0' !in s;
    SanitizeSpaced(s);
    DropNulsWithoutNul(s);
    TrimSpacedLt(x);
    var u := [x, ' '];
    assert LtsSpaced(u) && '\0' !in u;
    assert [x, ' ', '<'] == u + ['<'];
    SanitizeFinalLt(u);
    DropNulsWithoutNul(u);
    TrimSpaced(x);
  }

  /** A leading script element followed by tag-free, already trimmed text
      sanitizes to that text without its NULs. */
  lemma StubTextOfScriptPrefix(s: string, n: nat)
    requires ScriptMatch(s) == Some(n)
    requires '<' !in s[n..]
    requires s[n..] == [] || (!IsTrimSpace(s[n]) && !IsTrimSpace(s[|s| - 1]))
    ensures StubSanitizeText(s) == DropNuls(s[n..])
  {
    var t := s[n..];
    StripTagsWithoutTags(t);
    if t != [] {
      DropNulsKeepsEnds(t);
    }
    TrimOfTrimmed(DropNuls(t));
  }

  // ---- the email stub: filter_var with FILTER_SANITIZE_EMAIL ----

  /** Letters, digits and the punctuation ``!#$%&'*+-=?^_`{|}~@.[]``. */
  predicate IsEmailChar(c: char) {
    || IsAsciiLetter(c) || IsAsciiDigit(c)
    || c == '!' || c == '#' || c == '$' || c == '%' || c == '&' || c == '\''
    || c == '*' || c == '+' || c == '-' || c == '=' || c == '?' || c == '^'
    || c == '_' || c == '`' || c == '{' || c == '|' || c == '}' || c == '~'
    || c == '@' || c == '.' || c == '[' || c == ']'
  }

  /** The test's `sanitize_email`: removes every character not allowed in an address. */
  function StubSanitizeEmail(s: string): (r: string)
    ensures forall c :: c in r ==> IsEmailChar(c)
    ensures |r| <= |s|
    ensures |s| == 1 ==> r == (if IsEmailChar(s[0]) then s else [])
  {
    if s == [] then []
    else EmailKept(s[0]) + StubSanitizeEmail(s[1..])
  }

  /** One character as the email filter leaves it: itself when allowed, else nothing. */
  function EmailKept(c: char): string {
    if IsEmailChar(c) then [c] else []
  }

  /** An address made only of allowed characters passes unchanged. */
  lemma {:induction false} StubSanitizeEmailKeepsClean(s: string)
    requires forall i :: 0 <= i < |s| ==> IsEmailChar(s[i])
    ensures StubSanitizeEmail(s) == s
  {
    if s != [] {
      assert forall i :: 0 <= i < |s[1..]| ==> IsEmailChar(s[1..][i]) by {
        forall i | 0 <= i < |s[1..]| ensures IsEmailChar(s[1..][i]) {
          assert s[1..][i] == s[i + 1];
        }
      }
      StubSanitizeEmailKeepsClean(s[1..]);
      assert s == [s[0]] + s[1..];
    }
  }

  /** The filter works character by character: filtering a concatenation
      filters each part. With the one-character case of `StubSanitizeEmail`,
      this says exactly the allowed characters are kept, in order. */
  lemma {:induction false} StubSanitizeEmailAppend(a: string, b: string)
    ensures StubSanitizeEmail(a + b) == StubSanitizeEmail(a) + StubSanitizeEmail(b)
    decreases |a|
  {
    if a == [] {
      assert a + b == b;
    } else {
      var t := a[1..] + b;
      assert a + b == [a[0]] + t;
      EmailCons(a[0], t);
      StubSanitizeEmailAppend(a[1..], b);
      var k := EmailKept(a[0]);
      assert k + (StubSanitizeEmail(a[1..]) + StubSanitizeEmail(b))
          == (k + StubSanitizeEmail(a[1..])) + StubSanitizeEmail(b);
    }
  }

  lemma EmailCons(c: char, t: string)
    ensures StubSanitizeEmail([c] + t) == EmailKept(c) + StubSanitizeEmail(t)
  {
    assert ([c] + t)[0] == c && ([c] + t)[1..] == t;
  }

  /** Sanitizing an address twice is sanitizing it once. */
  lemma StubSanitizeEmailIdempotent(s: string)
    ensures StubSanitizeEmail(StubSanitizeEmail(s)) == StubSanitizeEmail(s)
  {
    StubSanitizeEmailKeepsClean(StubSanitizeEmail(s));
  }

  /** The filters as the field tests install them (`wp_kses_post` returns its argument). */
  function FieldTestSanitizers(): Sanitizers {
    Sanitizers(StubSanitizeText, StubSanitizeEmail, s => s)
  }

  /** The filters as the options-page tests install them: each returns its argument. */
  function PageTestSanitizers(): Sanitizers {
    Sanitizers(s => s, s => s, s => s)
  }
}

=== FILE: options_page.dfy ===
/** An options page: one admin settings page made of tabbed sections, with
    default and stored values, a menu entry, asset loading and the sanitize
    callback the host calls when the page's form is submitted.

    Request data (the POSTed and GET parameters), the stored option record,
    the compact-input flag and the host's sanitizers are explicit
    parameters. Host calls (menu, settings, hooks, assets) are returned as
    lists of call records instead of being performed. */
module OptionsPages {
  import opened Wrappers
  import opened OrderedMap
  import opened Fields
  import opened OptionsSections

  datatype OptionsPage = OptionsPage(
    pageTitle: string,
    menuTitle: string,
    menuSlug: string,
    capability: string,
    parentSlug: string,
    iconUrl: string,
    position: Option<int>,
    optionName: string,
    footerContent: string,
    sections: SectionMap,
    fields: FieldMap,
    defaultValues: map<string, Option<string>>,
    optionValues: map<string, Option<string>>)

  /** The persistence key a new page uses. */
  const DefaultOptionName := "hyperpress_options"

  /** The `parent_slug` meaning "add a top-level menu entry". */
  const TopLevelParent := "menu"

  /** `OptionsPage::make($pageTitle, $menuSlug)`. */
  function Make(pageTitle: string, menuSlug: string): (p: OptionsPage)
    ensures p.pageTitle == pageTitle && p.menuSlug == menuSlug
    ensures p.menuTitle == pageTitle
    ensures p.capability == "manage_options"
    ensures p.parentSlug == "options-general.php"
    ensures p.iconUrl == "" && p.position.None? && p.footerContent == ""
    ensures p.optionName == DefaultOptionName
    ensures p.sections == [] && p.fields == [] && p.defaultValues == map[] && p.optionValues == map[]
  {
    OptionsPage(pageTitle, pageTitle, menuSlug, "manage_options", "options-general.php", "", None,
                DefaultOptionName, "", [], [], map[], map[])
  }

  // Fluent setters: each stores its argument and changes no other attribute.

  function SetMenuTitle(p: OptionsPage, v: string): (r: OptionsPage)
    ensures r.menuTitle == v
    ensures r.(menuTitle := p.menuTitle) == p
  {
    p.(menuTitle := v)
  }

  function SetCapability(p: OptionsPage, v: string): (r: OptionsPage)
    ensures r.capability == v
    ensures r.(capability := p.capability) == p
  {
    p.(capability := v)
  }

  function SetParentSlug(p: OptionsPage, v: string): (r: OptionsPage)
    ensures r.parentSlug == v
    ensures r.(parentSlug := p.parentSlug) == p
  {
    p.(parentSlug := v)
  }

  function SetIconUrl(p: OptionsPage, v: string): (r: OptionsPage)
    ensures r.iconUrl == v
    ensures r.(iconUrl := p.iconUrl) == p
  {
    p.(iconUrl := v)
  }

  function SetPosition(p: OptionsPage, v: int): (r: OptionsPage)
    ensures r.position == Some(v)
    ensures r.(position := p.position) == p
  {
    p.(position := Some(v))
  }

  function SetOptionName(p: OptionsPage, v: string): (r: OptionsPage)
    ensures r.optionName == v
    ensures r.(optionName := p.optionName) == p
  {
    p.(optionName := v)
  }

  function SetFooterContent(p: OptionsPage, v: string): (r: OptionsPage)
    ensures r.footerContent == v
    ensures r.(footerContent := p.footerContent) == p
  {
    p.(footerContent := v)
  }

  // ---- sections, fields and defaults ----

  /** `addSection($id, $title, $description)`: creates an empty section,
      stores it under its id and returns it with the updated page. */
  function AddSection(p: OptionsPage, id: string, title: string, description: string := "")
    : (res: (OptionsPage, OptionsSection))
    ensures res.1 == New(id, title, description) && res.1.id == id
    ensures Get(res.0.sections, id) == Some(res.1)
    ensures forall n :: n != id ==> Get(res.0.sections, n) == Get(p.sections, n)
    ensures id !in Keys(p.sections) ==> Keys(res.0.sections) == Keys(p.sections) + [id]
    ensures id in Keys(p.sections) ==> Keys(res.0.sections) == Keys(p.sections)
    ensures res.0.(sections := p.sections) == p
  {
    var s := New(id, title, description);
    (p.(sections := AddById(p.sections, s)), s)
  }

  /** `$section->addField($field)` on a section obtained from `addSection`:
      the page holds the same section object, so the page sees the field.
      Nothing happens when no section has that id. Defaults are not touched. */
  function SectionAddField(p: OptionsPage, sectionId: string, f: Field): (r: OptionsPage)
    ensures sectionId in Keys(p.sections) ==>
              Get(r.sections, sectionId) == Some(AddField(Get(p.sections, sectionId).value, f))
    ensures sectionId !in Keys(p.sections) ==> r == p
    ensures forall n :: n != sectionId ==> Get(r.sections, n) == Get(p.sections, n)
    ensures Keys(r.sections) == Keys(p.sections)
    ensures r.(sections := p.sections) == p
  {
    match Get(p.sections, sectionId)
    case None => p
    case Some(s) =>
      var s' := AddField(s, f);
      p.(sections := AddById(p.sections, s'))
  }

  /** Writes each field's default under its name, in order. */
  function FoldDefaults(d: map<string, Option<string>>, m: FieldMap): (r: map<string, Option<string>>)
    decreases |m|
    ensures forall n :: n in r <==> n in d || n in Keys(m)
    ensures forall i :: 0 <= i < |m| ==> m[i].1.name in r && r[m[i].1.name] == m[i].1.defaultValue
    ensures forall n :: n in d && n !in Keys(m) ==> r[n] == d[n]
  {
    if m == [] then d
    else
      var rest: FieldMap := m[1..];
      assert Keys(m) == [m[0].0] + Keys(rest);
      assert m[0].0 !in Keys(rest) by {
        forall j | 0 <= j < |rest| ensures Keys(rest)[j] != m[0].0 {
          assert rest[j] == m[j + 1];
        }
      }
      FoldDefaults(d[m[0].1.name := m[0].1.defaultValue], rest)
  }

  /** `addSectionObject($section)`: stores the section under its id and
      folds each of its fields' defaults into `default_values`. */
  function AddSectionObject(p: OptionsPage, s: OptionsSection): (r: OptionsPage)
    ensures Get(r.sections, s.id) == Some(s)
    ensures forall n :: n != s.id ==> Get(r.sections, n) == Get(p.sections, n)
    ensures s.id !in Keys(p.sections) ==> Keys(r.sections) == Keys(p.sections) + [s.id]
    ensures s.id in Keys(p.sections) ==> Keys(r.sections) == Keys(p.sections)
    ensures forall i :: 0 <= i < |s.fields| ==>
              s.fields[i].1.name in r.defaultValues &&
              r.defaultValues[s.fields[i].1.name] == s.fields[i].1.defaultValue
    ensures forall n :: n in p.defaultValues && n !in Keys(s.fields) ==>
              n in r.defaultValues && r.defaultValues[n] == p.defaultValues[n]
    ensures forall n :: n in r.defaultValues ==> n in p.defaultValues || n in Keys(s.fields)
    ensures r.(sections := p.sections, defaultValues := p.defaultValues) == p
  {
    p.(sections := AddById(p.sections, s), defaultValues := FoldDefaults(p.defaultValues, s.fields))
  }

  /** `addField($field)`: attaches the field to the page itself (outside any
      section) and records its default. */
  function AddPageField(p: OptionsPage, f: Field): (r: OptionsPage)
    ensures Get(r.fields, f.name) == Some(f)
    ensures forall n :: n != f.name ==> Get(r.fields, n) == Get(p.fields, n)
    ensures f.name in r.defaultValues && r.defaultValues[f.name] == f.defaultValue
    ensures forall n :: n != f.name ==> (n in r.defaultValues <==> n in p.defaultValues)
    ensures forall n :: n != f.name && n in p.defaultValues ==> r.defaultValues[n] == p.defaultValues[n]
    ensures r.(fields := p.fields, defaultValues := p.defaultValues) == p
  {
    p.(fields := AddByName(p.fields, f), defaultValues := p.defaultValues[f.name := f.defaultValue])
  }

  // ---- loading stored values ----

  /** `loadOptions()`, given the stored record of `option_name` (empty when
      nothing is stored): a stored value wins over the field default. */
  function LoadOptions(p: OptionsPage, stored: map<string, string>): (r: OptionsPage)
    ensures forall k :: k in r.optionValues <==> k in p.defaultValues || k in stored
    ensures forall k :: k in stored ==> r.optionValues[k] == Some(stored[k])
    ensures forall k :: k in p.defaultValues && k !in stored ==> r.optionValues[k] == p.defaultValues[k]
    ensures r.(optionValues := p.optionValues) == p
  {
    p.(optionValues :=
         map k | k in p.defaultValues.Keys + stored.Keys ::
           if k in stored then Some(stored[k]) else p.defaultValues[k])
  }

  /** A field added to the page loads its stored value when there is one,
      and its default otherwise. */
  lemma LoadAddedField(p: OptionsPage, f: Field, stored: map<string, string>)
    ensures var q := LoadOptions(AddPageField(p, f), stored);
            && f.name in q.optionValues
            && q.optionValues[f.name] == (if f.name in stored then Some(stored[f.name]) else f.defaultValue)
  {
  }

  // ---- the active tab ----

  /** The request parameters this core reads. */
  datatype Request = Request(
    post: map<string, string>,
    query: map<string, string>,
    /** The decoded JSON blob POSTed under `hyperpress_compact_input`, when
        one was sent and decoded to an object of objects. */
    compactInput: Option<map<string, map<string, string>>>)

  const ActiveTabField := "hyperpress_active_tab"
  const TabQueryParam := "tab"
  const DefaultTab := "main"

  /** `getActiveTab()`: the POSTed tab, else the `tab` query parameter, else
      the first section's id, else "main". */
  function ActiveTab(p: OptionsPage, req: Request): (t: string)
    ensures ActiveTabField in req.post ==> t == req.post[ActiveTabField]
    ensures ActiveTabField !in req.post && TabQueryParam in req.query ==> t == req.query[TabQueryParam]
    ensures ActiveTabField !in req.post && TabQueryParam !in req.query ==>
              (p.sections == [] <==> t == DefaultTab && t !in Keys(p.sections)) &&
              (p.sections != [] ==> t in Keys(p.sections) && t == Keys(p.sections)[0])
  {
    if ActiveTabField in req.post then req.post[ActiveTabField]
    else if TabQueryParam in req.query then req.query[TabQueryParam]
    else if p.sections != [] then p.sections[0].0
    else DefaultTab
  }

  // ---- sanitizing a submission ----

  /** The compact-input key of the decoded blob is the page's option name;
      when the flag is on and that sub-map was sent, it replaces `input`. */
  function EffectiveInput(p: OptionsPage, input: map<string, string>, req: Request, compactMode: bool)
    : (eff: map<string, string>)
    ensures compactMode && req.compactInput.Some? && p.optionName in req.compactInput.value ==>
              eff == req.compactInput.value[p.optionName]
    ensures !(compactMode && req.compactInput.Some? && p.optionName in req.compactInput.value) ==>
              eff == input
  {
    if compactMode && req.compactInput.Some? && p.optionName in req.compactInput.value
    then req.compactInput.value[p.optionName]
    else input
  }

  /** `a` and `b` agree at key `k`: both lack it, or both hold the same value. */
  predicate Agrees(a: map<string, string>, b: map<string, string>, k: string) {
    (k in a <==> k in b) && (k in a ==> a[k] == b[k])
  }

  /** What sanitizing leaves under field `f`'s name: the sanitized input when
      the input has the key, "0" for an absent checkbox, otherwise the
      previous value (or nothing). */
  predicate SanitizedAs(f: Field, eff: map<string, string>, out: map<string, string>,
                        r: map<string, string>, host: Sanitizers) {
    if f.name in eff then f.name in r && r[f.name] == SanitizeValue(f, eff[f.name], host)
    else if f.fieldType == "checkbox" then f.name in r && r[f.name] == "0"
    else Agrees(r, out, f.name)
  }

  /** One field's step of the sanitize loop. */
  function SanitizeOne(f: Field, eff: map<string, string>, out: map<string, string>, host: Sanitizers)
    : map<string, string>
  {
    if f.name in eff then out[f.name := SanitizeValue(f, eff[f.name], host)]
    else if f.fieldType == "checkbox" then out[f.name := "0"]
    else out
  }

  /** The sanitize loop over a section's fields, in order. */
  function SanitizeFields(m: FieldMap, eff: map<string, string>, out: map<string, string>, host: Sanitizers)
    : (r: map<string, string>)
    decreases |m|
    ensures forall i :: 0 <= i < |m| ==> SanitizedAs(m[i].1, eff, out, r, host)
    ensures forall k :: k !in Keys(m) ==> Agrees(r, out, k)
  {
    if m == [] then out
    else
      var rest: FieldMap := m[1..];
      var f := m[0].1;
      assert Keys(m) == [m[0].0] + Keys(rest);
      assert f.name !in Keys(rest) by {
        forall j | 0 <= j < |rest| ensures Keys(rest)[j] != f.name {
          assert rest[j] == m[j + 1];
        }
      }
      var out' := SanitizeOne(f, eff, out, host);
      var r := SanitizeFields(rest, eff, out', host);
      assert forall i :: 1 <= i < |m| ==> m[i] == rest[i - 1];
      assert forall i :: 1 <= i < |m| ==> m[i].1.name != f.name;
      r
  }

  /** The fields of the section the request's active tab names (none when
      no section has that id). */
  function ActiveFields(p: OptionsPage, req: Request): (m: FieldMap)
    ensures ActiveTab(p, req) !in Keys(p.sections) ==> m == []
    ensures ActiveTab(p, req) in Keys(p.sections) ==> m == Get(p.sections, ActiveTab(p, req)).value.fields
  {
    match Get(p.sections, ActiveTab(p, req))
    case None => []
    case Some(s) => s.fields
  }

  /** `sanitizeOptions($input)`: sanitizes every field of the active tab's
      section from the effective input, on top of `previous` (the record
      the result is merged into; empty for "only the active tab's values").
      Keys of other fields keep their previous value. */
  function SanitizeOptions(p: OptionsPage, input: map<string, string>, req: Request, compactMode: bool,
                           previous: map<string, string>, host: Sanitizers)
    : (r: map<string, string>)
    ensures forall i :: 0 <= i < |ActiveFields(p, req)| ==>
              SanitizedAs(ActiveFields(p, req)[i].1, EffectiveInput(p, input, req, compactMode), previous, r, host)
    ensures forall k :: k !in Keys(ActiveFields(p, req)) ==> Agrees(r, previous, k)
  {
    SanitizeFields(ActiveFields(p, req), EffectiveInput(p, input, req, compactMode), previous, host)
  }

  /** In compact mode, once the blob carries the page's sub-map, the plain
      input argument is ignored. */
  lemma CompactInputIgnoresPlainInput(p: OptionsPage, in1: map<string, string>, in2: map<string, string>,
                                      req: Request, previous: map<string, string>, host: Sanitizers)
    requires req.compactInput.Some? && p.optionName in req.compactInput.value
    ensures SanitizeOptions(p, in1, req, true, previous, host) == SanitizeOptions(p, in2, req, true, previous, host)
  {
  }

  /** Every active checkbox ends up as "0" or "1", present or not in the input. */
  lemma ActiveCheckboxesAreBinary(p: OptionsPage, input: map<string, string>, req: Request, compactMode: bool,
                                  previous: map<string, string>, host: Sanitizers, i: nat)
    requires i < |ActiveFields(p, req)| && ActiveFields(p, req)[i].1.fieldType == "checkbox"
    ensures var r := SanitizeOptions(p, input, req, compactMode, previous, host);
            var n := ActiveFields(p, req)[i].1.name;
            n in r && (r[n] == "0" || r[n] == "1")
  {
  }

  // ---- host calls: menu, assets, hooks, settings ----

  /** The menu registration call; both forms bind the page's render method. */
  datatype MenuEntry =
    | TopLevel(pageTitle: string, menuTitle: string, capability: string, menuSlug: string,
               iconUrl: string, position: Option<int>)
    | Submenu(parentSlug: string, pageTitle: string, menuTitle: string, capability: string,
              menuSlug: string, position: Option<int>)

  /** `addMenuPage()`: a top-level entry when `parent_slug` is "menu",
      otherwise a submenu entry under `parent_slug`. */
  function AddMenuPage(p: OptionsPage): (e: MenuEntry)
    ensures e.TopLevel? <==> p.parentSlug == TopLevelParent
    ensures e.Submenu? ==> e.parentSlug == p.parentSlug
    ensures e.TopLevel? ==> e.iconUrl == p.iconUrl
    ensures e.pageTitle == p.pageTitle && e.menuTitle == p.menuTitle && e.capability == p.capability
    ensures e.menuSlug == p.menuSlug && e.position == p.position
  {
    if p.parentSlug == TopLevelParent
    then TopLevel(p.pageTitle, p.menuTitle, p.capability, p.menuSlug, p.iconUrl, p.position)
    else Submenu(p.parentSlug, p.pageTitle, p.menuTitle, p.capability, p.menuSlug, p.position)
  }

  /** The admin screen id of this page. */
  function ScreenId(p: OptionsPage): string {
    "settings_page_" + p.menuSlug
  }

  datatype AssetCall =
    | TemplateAssets
    | EnqueueScript(handle: string, src: string, deps: seq<string>, version: string, inFooter: bool)
    | LocalizeScript(handle: string, objectName: string)

  const ScriptHandle := "hyperpress-admin-options"

  /** `enqueueAssets($hook)`, given the plugin URL and version constants:
      nothing unless the screen is this page's; then the template assets,
      the options script and its localized data object. */
  function EnqueueAssets(p: OptionsPage, screenId: string, pluginUrl: string, version: string)
    : (calls: seq<AssetCall>)
    ensures calls != [] <==> screenId == ScreenId(p)
    ensures calls != [] ==>
              && |calls| == 3
              && TemplateAssets in calls
              && EnqueueScript(ScriptHandle, pluginUrl + "assets/js/admin-options.js", ["jquery"], version, true) in calls
              && LocalizeScript(ScriptHandle, "hyperpressOptions") in calls
  {
    if screenId == ScreenId(p) then
      [TemplateAssets,
       EnqueueScript(ScriptHandle, pluginUrl + "assets/js/admin-options.js", ["jquery"], version, true),
       LocalizeScript(ScriptHandle, "hyperpressOptions")]
    else []
  }

  /** The page method a hook is bound to. */
  datatype Handler = MenuHandler | SettingsHandler | AssetsHandler

  datatype Hook = Hook(event: string, handler: Handler)

  /** `register()`: binds the menu, settings and asset methods to their admin actions. */
  function Register(p: OptionsPage): (hooks: seq<Hook>)
    ensures |hooks| == 3
    ensures Hook("admin_menu", MenuHandler) in hooks
    ensures Hook("admin_init", SettingsHandler) in hooks
    ensures Hook("admin_enqueue_scripts", AssetsHandler) in hooks
  {
    [Hook("admin_menu", MenuHandler), Hook("admin_init", SettingsHandler),
     Hook("admin_enqueue_scripts", AssetsHandler)]
  }

  /** A call into the host's settings subsystem. The sanitize callback of
      `RegisterSetting` and the render callback of `AddSettingsField` (the
      named field's render method) are implicit. */
  datatype SettingsCall =
    | RegisterSetting(group: string, name: string)
    | AddSettingsSection(id: string, title: string, callback: string, page: string)
    | AddSettingsField(id: string, title: string, page: string, section: string, args: map<Key, Mixed>)

  function FieldCall(f: Field, page: string, sectionId: string): SettingsCall {
    AddSettingsField(f.name, "", page, sectionId, ToArray(f))
  }

  function SectionCall(s: OptionsSection, page: string): SettingsCall {
    AddSettingsSection(s.id, "", "__return_false", page)
  }

  function FieldCount(secs: OMap<OptionsSection>): nat
    decreases |secs|
  {
    if secs == [] then 0 else |secs[0].1.fields| + FieldCount(secs[1..])
  }

  /** The section and field calls for a list of sections, section by section. */
  function SectionCalls(secs: OMap<OptionsSection>, page: string): (calls: seq<SettingsCall>)
    decreases |secs|
    ensures |calls| == |secs| + FieldCount(secs)
    ensures forall i :: 0 <= i < |secs| ==> SectionCall(secs[i].1, page) in calls
    ensures forall i, j :: 0 <= i < |secs| && 0 <= j < |secs[i].1.fields| ==>
              FieldCall(secs[i].1.fields[j].1, page, secs[i].1.id) in calls
    ensures forall c :: c in calls ==> c.AddSettingsSection? || c.AddSettingsField?
  {
    if secs == [] then []
    else
      var s := secs[0].1;
      var own := FieldCalls(s, page);
      var rest := SectionCalls(secs[1..], page);
      assert forall i :: 1 <= i < |secs| ==> secs[i] == secs[1..][i - 1];
      [SectionCall(s, page)] + own + rest
  }

  /** The field calls of one section, in field order. */
  function FieldCalls(s: OptionsSection, page: string): (own: seq<SettingsCall>)
    ensures |own| == |s.fields|
    ensures forall j :: 0 <= j < |s.fields| ==> FieldCall(s.fields[j].1, page, s.id) in own
    ensures forall c :: c in own ==> c.AddSettingsField?
  {
    var own := seq(|s.fields|, j requires 0 <= j < |s.fields| => FieldCall(s.fields[j].1, page, s.id));
    assert forall j :: 0 <= j < |s.fields| ==> FieldCall(s.fields[j].1, page, s.id) in own by {
      forall j | 0 <= j < |s.fields| ensures FieldCall(s.fields[j].1, page, s.id) in own {
        assert own[j] == FieldCall(s.fields[j].1, page, s.id);
      }
    }
    own
  }

  /** `registerSettings()`: one setting named by `option_name` (which also
      serves as the settings page id), then each section and its fields. */
  function RegisterSettings(p: OptionsPage): (calls: seq<SettingsCall>)
    ensures |calls| == 1 + |p.sections| + FieldCount(p.sections)
    ensures calls[0] == RegisterSetting(p.optionName, p.optionName)
    ensures forall c :: c in calls[1..] ==> !c.RegisterSetting?
    ensures forall i :: 0 <= i < |p.sections| ==> SectionCall(p.sections[i].1, p.optionName) in calls
    ensures forall i, j :: 0 <= i < |p.sections| && 0 <= j < |p.sections[i].1.fields| ==>
              FieldCall(p.sections[i].1.fields[j].1, p.optionName, p.sections[i].1.id) in calls
  {
    var rest := SectionCalls(p.sections, p.optionName);
    assert ([RegisterSetting(p.optionName, p.optionName)] + rest)[1..] == rest;
    [RegisterSetting(p.optionName, p.optionName)] + rest
  }
}

=== FILE: options_section.dfy ===
/** An options section: one tab of an options page, holding fields in
    insertion order, keyed by field name. */
module OptionsSections {
  import opened Wrappers
  import opened OrderedMap
  import opened Fields

  datatype OptionsSection = OptionsSection(
    id: string,
    title: string,
    description: string,
    fields: FieldMap)

  /** `new OptionsSection($id, $title, $description)`: a section with no fields. */
  function New(id: string, title: string, description: string := ""): (s: OptionsSection)
    ensures s.id == id && s.title == title && s.description == description
    ensures s.fields == []
  {
    OptionsSection(id, title, description, [])
  }

  /** `addField($field)`: the field is stored under its name; a new name is
      appended, a known one replaced in place; id, title and description stay. */
  function AddField(s: OptionsSection, f: Field): (r: OptionsSection)
    ensures Get(r.fields, f.name) == Some(f)
    ensures forall n :: n != f.name ==> Get(r.fields, n) == Get(s.fields, n)
    ensures f.name in Keys(s.fields) ==> Keys(r.fields) == Keys(s.fields)
    ensures f.name !in Keys(s.fields) ==> Keys(r.fields) == Keys(s.fields) + [f.name]
    ensures f.name !in Keys(s.fields) ==> Values(r.fields) == Values(s.fields) + [f]
    ensures r.id == s.id && r.title == s.title && r.description == s.description
  {
    s.(fields := AddByName(s.fields, f))
  }

  /** An ordered section collection keyed by each section's own id. */
  predicate KeyedById(m: OMap<OptionsSection>) {
    && UniqueKeys(m)
    && forall i :: 0 <= i < |m| ==> m[i].0 == m[i].1.id
  }

  type SectionMap = m: OMap<OptionsSection> | KeyedById(m) witness []

  /** Stores `s` under its id: a new id is appended, a known one replaced in place. */
  function AddById(m: SectionMap, s: OptionsSection): (r: SectionMap)
    ensures Get(r, s.id) == Some(s)
    ensures forall n :: n != s.id ==> Get(r, n) == Get(m, n)
    ensures s.id in Keys(m) ==> Keys(r) == Keys(m)
    ensures s.id !in Keys(m) ==> Keys(r) == Keys(m) + [s.id]
  {
    Put(m, s.id, s)
  }
}

=== FILE: ordered_map.dfy ===
/** An insertion-ordered associative array, as PHP arrays with string keys
    behave: a sequence of key/value entries in which writing an existing key
    replaces its value in place and writing a new key appends it. */
module OrderedMap {
  import opened Wrappers

  /** PHP arrays here are always keyed by strings. */
  type OMap<V> = seq<(string, V)>

  /** No key occurs in two entries. */
  predicate UniqueKeys<V>(m: OMap<V>) {
    forall i, j :: 0 <= i < j < |m| ==> m[i].0 != m[j].0
  }

  /** The keys, in insertion order. */
  function Keys<V>(m: OMap<V>): (ks: seq<string>)
    ensures |ks| == |m|
    ensures forall i :: 0 <= i < |m| ==> ks[i] == m[i].0
  {
    seq(|m|, i requires 0 <= i < |m| => m[i].0)
  }

  /** The values, in insertion order (PHP `array_values`). */
  function Values<V>(m: OMap<V>): (vs: seq<V>)
    ensures |vs| == |m|
    ensures forall i :: 0 <= i < |m| ==> vs[i] == m[i].1
  {
    seq(|m|, i requires 0 <= i < |m| => m[i].1)
  }

  /** The position of the first entry with key `k`, if any. */
  function Find<V>(m: OMap<V>, k: string): (r: Option<nat>)
    ensures r.Some? ==> r.value < |m| && m[r.value].0 == k
    ensures r.Some? ==> forall j :: 0 <= j < r.value ==> m[j].0 != k
    ensures r.None? <==> k !in Keys(m)
  {
    if |m| == 0 then None
    else if m[0].0 == k then Some(0)
    else
      match Find(m[1..], k)
      case None => None
      case Some(i) => Some(i + 1)
  }

  /** PHP `$m[$k] ?? null`: the value stored under `k`. */
  function Get<V>(m: OMap<V>, k: string): (r: Option<V>)
    ensures r.Some? <==> k in Keys(m)
    ensures r.Some? ==> (k, r.value) in m
  {
    match Find(m, k)
    case None => None
    case Some(i) => Some(m[i].1)
  }

  /** With unique keys, the value found under an entry's key is that entry's value. */
  lemma GetAt<V>(m: OMap<V>, i: nat)
    requires UniqueKeys(m)
    requires i < |m|
    ensures Get(m, m[i].0) == Some(m[i].1)
  {
    var r := Find(m, m[i].0);
    assert r.Some? by { assert Keys(m)[i] == m[i].0; }
  }

  /** PHP `$m[$k] = $v`: replaces in place when `k` is present, appends otherwise. */
  function Put<V>(m: OMap<V>, k: string, v: V): (r: OMap<V>)
    ensures Get(r, k) == Some(v)
    ensures forall k' :: k' != k ==> Get(r, k') == Get(m, k')
    ensures k in Keys(m) ==> Keys(r) == Keys(m)
    ensures k !in Keys(m) ==> Keys(r) == Keys(m) + [k]
    ensures UniqueKeys(m) ==> UniqueKeys(r)
    ensures forall i :: 0 <= i < |r| ==> r[i] == (k, v) || (i < |m| && r[i] == m[i])
    ensures forall i :: 0 <= i < |m| && m[i].0 != k ==> r[i] == m[i]
  {
    match Find(m, k)
    case None =>
      var r := m + [(k, v)];
      PutGetAppend(m, k, v);
      r
    case Some(i) =>
      var r := m[i := (k, v)];
      PutGetReplace(m, i, k, v);
      r
  }

  lemma PutGetAppend<V>(m: OMap<V>, k: string, v: V)
    requires k !in Keys(m)
    ensures Get(m + [(k, v)], k) == Some(v)
    ensures forall k' :: k' != k ==> Get(m + [(k, v)], k') == Get(m, k')
    ensures Keys(m + [(k, v)]) == Keys(m) + [k]
  {
    var r := m + [(k, v)];
    assert Keys(r) == Keys(m) + [k];
    var f := Find(r, k);
    assert f.Some? by { assert Keys(r)[|m|] == k; }
    assert forall j :: 0 <= j < |m| ==> r[j].0 == Keys(m)[j];
    forall k' | k' != k
      ensures Get(r, k') == Get(m, k')
    {
      GetAppendOther(m, k, v, k');
    }
  }

  lemma GetAppendOther<V>(m: OMap<V>, k: string, v: V, k': string)
    requires k' != k
    ensures Get(m + [(k, v)], k') == Get(m, k')
  {
    var r := m + [(k, v)];
    var a := Find(r, k');
    var b := Find(m, k');
    if b.Some? {
      assert r[b.value] == m[b.value];
      assert a.Some? by { assert Keys(r)[b.value] == k'; }
      assert a.value <= b.value;
      assert r[a.value] == m[a.value];
    } else {
      assert Keys(r) == Keys(m) + [k];
      assert a.None?;
    }
  }

  lemma PutGetReplace<V>(m: OMap<V>, i: nat, k: string, v: V)
    requires Find(m, k) == Some(i)
    ensures Get(m[i := (k, v)], k) == Some(v)
    ensures forall k' :: k' != k ==> Get(m[i := (k, v)], k') == Get(m, k')
    ensures Keys(m[i := (k, v)]) == Keys(m)
  {
    var r := m[i := (k, v)];
    assert Keys(r) == Keys(m);
    assert Find(r, k) == Some(i);
    forall k' | k' != k
      ensures Get(r, k') == Get(m, k')
    {
      var a := Find(r, k');
      var b := Find(m, k');
      if b.Some? {
        assert a.Some? && a.value == b.value;
      } else {
        assert a.None?;
      }
    }
  }
}

=== FILE: registry.dfy ===
/** The field registry: container id -> fields keyed by name, in
    registration order. The process-wide singleton is replaced by an
    explicit state value passed to and returned from each operation. */
module FieldRegistry {
  import opened Wrappers
  import opened OrderedMap
  import opened Fields

  datatype Registry = Registry(containers: map<string, FieldMap>)

  /** The state of a fresh `Registry::getInstance()`. */
  function Empty(): (r: Registry)
    ensures forall c :: !ContainerExists(r, c)
  {
    Registry(map[])
  }

  /** `containerExists($id)`. */
  predicate ContainerExists(r: Registry, id: string): (b: bool)
    ensures b <==> id in GetAllFields(r)
    ensures !b ==> GetFields(r, id) == []
  {
    id in r.containers
  }

  /** The container's field collection; empty for an unknown container. */
  function Container(r: Registry, id: string): (m: FieldMap)
    ensures id !in r.containers ==> m == []
  {
    if id in r.containers then r.containers[id] else []
  }

  /** `getFields($id)`: the container's fields in registration order; empty
      for an unknown container. */
  function GetFields(r: Registry, id: string): (fs: seq<Field>)
    ensures id !in r.containers ==> fs == []
    ensures |fs| == |Container(r, id)|
    ensures forall i :: 0 <= i < |fs| ==> Get(Container(r, id), fs[i].name) == Some(fs[i])
    ensures forall n :: Get(Container(r, id), n).Some? ==> Get(Container(r, id), n).value in fs
  {
    var m := Container(r, id);
    var fs := Values(m);
    assert forall i :: 0 <= i < |fs| ==> Get(m, fs[i].name) == Some(fs[i]) by {
      forall i | 0 <= i < |fs| ensures Get(m, fs[i].name) == Some(fs[i]) {
        GetAt(m, i);
      }
    }
    assert forall n :: Get(m, n).Some? ==> Get(m, n).value in fs by {
      forall n | Get(m, n).Some? ensures Get(m, n).value in fs {
        var i :| 0 <= i < |m| && m[i] == (n, Get(m, n).value);
        assert fs[i] == m[i].1;
      }
    }
    fs
  }

  /** `registerField($id, $field)`: stores the field under its name in the
      container, creating the container on first use. */
  function RegisterField(r: Registry, id: string, f: Field): (r': Registry)
    ensures ContainerExists(r', id)
    ensures Get(Container(r', id), f.name) == Some(f)
    ensures forall n :: n != f.name ==> Get(Container(r', id), n) == Get(Container(r, id), n)
    ensures forall c :: c != id ==> (ContainerExists(r', c) <==> ContainerExists(r, c))
    ensures forall c :: c != id ==> GetFields(r', c) == GetFields(r, c)
  {
    Registry(r.containers[id := AddByName(Container(r, id), f)])
  }

  /** `getAllFields()`: container id -> field name -> field, each
      container's fields in registration order. */
  function GetAllFields(r: Registry): (all: map<string, FieldMap>)
    ensures all.Keys == r.containers.Keys
    ensures forall c :: c in all ==> Values(all[c]) == GetFields(r, c)
    ensures forall c, n :: c in all ==> Get(all[c], n) == Get(Container(r, c), n)
  {
    r.containers
  }

  /** `removeContainer($id)`: forgets the container; nothing happens when it is absent. */
  function RemoveContainer(r: Registry, id: string): (r': Registry)
    ensures !ContainerExists(r', id)
    ensures !ContainerExists(r, id) ==> r' == r
    ensures forall c :: c != id ==> (ContainerExists(r', c) <==> ContainerExists(r, c))
    ensures forall c :: c != id ==> GetFields(r', c) == GetFields(r, c)
  {
    Registry(r.containers - {id})
  }

  /** `clear()`: no container is left. */
  function Clear(r: Registry): (r': Registry)
    ensures forall c :: !ContainerExists(r', c)
    ensures GetAllFields(r') == map[]
  {
    Empty()
  }

  // ---- properties the registry tests pin down ----

  /** Registering one field in a container that did not exist yields that
      field alone. */
  lemma RegisterIntoNewContainer(r: Registry, id: string, f: Field)
    requires !ContainerExists(r, id)
    ensures GetFields(RegisterField(r, id, f), id) == [f]
  {
  }

  /** A field with a new name is appended after the fields already there. */
  lemma RegisterAppends(r: Registry, id: string, f: Field)
    requires Get(Container(r, id), f.name).None?
    ensures GetFields(RegisterField(r, id, f), id) == GetFields(r, id) + [f]
  {
  }

  /** Re-registering a known name keeps every position: the container's
      size and order of names are unchanged. */
  lemma RegisterReplacesInPlace(r: Registry, id: string, f: Field)
    requires id in r.containers && f.name in Keys(r.containers[id])
    ensures Keys(RegisterField(r, id, f).containers[id]) == Keys(r.containers[id])
    ensures |GetFields(RegisterField(r, id, f), id)| == |GetFields(r, id)|
  {
  }

  /** Registering fields with distinct new names one after another yields
      them in registration order. */
  function RegisterAll(r: Registry, id: string, fs: seq<Field>): Registry
    decreases |fs|
  {
    if fs == [] then r else RegisterAll(RegisterField(r, id, fs[0]), id, fs[1..])
  }

  predicate DistinctNames(fs: seq<Field>) {
    forall i, j :: 0 <= i < j < |fs| ==> fs[i].name != fs[j].name
  }

  lemma {:induction false} RegisterAllInOrder(r: Registry, id: string, fs: seq<Field>)
    requires DistinctNames(fs)
    requires forall i :: 0 <= i < |fs| ==> Get(Container(r, id), fs[i].name).None?
    ensures GetFields(RegisterAll(r, id, fs), id) == GetFields(r, id) + fs
    decreases |fs|
  {
    if fs != [] {
      var r1 := RegisterField(r, id, fs[0]);
      var rest := fs[1..];
      var before := GetFields(r, id);
      var middle := GetFields(r1, id);
      assert middle == before + [fs[0]] by {
        RegisterAppends(r, id, fs[0]);
      }
      assert DistinctNames(rest) && forall i :: 0 <= i < |rest| ==> Get(Container(r1, id), rest[i].name).None? by {
        DistinctTail(fs);
        FreshAfterFirst(r, id, fs);
      }
      RegisterAllInOrder(r1, id, rest);
      assert GetFields(RegisterAll(r, id, fs), id) == middle + rest;
      AppendFirstThenRest(before, fs);
    }
  }

  lemma DistinctTail(fs: seq<Field>)
    requires fs != [] && DistinctNames(fs)
    ensures DistinctNames(fs[1..])
  {
    var rest := fs[1..];
    forall i, j | 0 <= i < j < |rest| ensures rest[i].name != rest[j].name {
      assert rest[i] == fs[i + 1] && rest[j] == fs[j + 1];
    }
  }

  /** After the first field is registered, the remaining ones are still new. */
  lemma FreshAfterFirst(r: Registry, id: string, fs: seq<Field>)
    requires fs != [] && DistinctNames(fs)
    requires forall i :: 0 <= i < |fs| ==> Get(Container(r, id), fs[i].name).None?
    ensures forall i :: 0 <= i < |fs| - 1 ==>
              Get(Container(RegisterField(r, id, fs[0]), id), fs[1..][i].name).None?
  {
    var r1 := RegisterField(r, id, fs[0]);
    forall i | 0 <= i < |fs| - 1
      ensures Get(Container(r1, id), fs[1..][i].name).None?
    {
      assert fs[1..][i] == fs[i + 1];
      assert fs[i + 1].name != fs[0].name;
    }
  }

  /** Appending the head of `s`, then its tail, appends `s`. */
  lemma AppendFirstThenRest<T>(a: seq<T>, s: seq<T>)
    requires s != []
    ensures (a + [s[0]]) + s[1..] == a + s
  {
    assert [s[0]] + s[1..] == s;
    assert (a + [s[0]]) + s[1..] == a + ([s[0]] + s[1..]);
  }

  /** Registering in one container never changes another. */
  lemma RegisterIsolated(r: Registry, id: string, other: string, f: Field)
    requires other != id
    ensures GetFields(RegisterField(r, id, f), other) == GetFields(r, other)
    ensures ContainerExists(RegisterField(r, id, f), other) == ContainerExists(r, other)
  {
  }

  /** Registering then removing a container that did not exist restores the state. */
  lemma RegisterThenRemove(r: Registry, id: string, f: Field)
    requires !ContainerExists(r, id)
    ensures RemoveContainer(RegisterField(r, id, f), id) == r
  {
    assert r.containers[id := AddByName([], f)] - {id} == r.containers;
  }
}

=== FILE: scenarios.dfy ===
/** The assertions of the unit tests, replayed against the model: each
    lemma builds the test's objects with the model's operations and states
    what the test asserts about them. */
module Scenarios {
  import opened Wrappers
  import opened Text
  import opened OrderedMap
  import opened Fields
  import opened HostStubs
  import opened FieldRegistry
  import opened OptionsSections
  import opened OptionsPages

  // ---- fields ----

  lemma FieldCreationWithMake()
    ensures var r := Fields.Make("text", "field_name", "Field Label");
            && r.Success?
            && r.value.fieldType == "text" && r.value.name == "field_name"
            && r.value.labelText == "Field Label"
  {
    assert IsValidName("field_name");
  }

  lemma FieldSettersAndGetters()
    ensures var r := Fields.Make("email", "user_email", "User Email");
            r.Success? &&
            var f := SetHtml(SetHelp(SetRequired(SetPlaceholder(SetDefault(r.value,
                       "user@example.com"), "Enter your email"), true), "This is your email address"),
                       "<div>Custom HTML</div>");
            && f.fieldType == "email" && f.name == "user_email" && f.labelText == "User Email"
            && f.defaultValue == Some("user@example.com")
            && f.placeholder == Some("Enter your email")
            && IsRequired(f)
            && f.help == Some("This is your email address")
            && f.html == Some("<div>Custom HTML</div>")
  {
    assert IsValidName("user_email");
  }

  lemma FieldContexts()
    ensures var r := Fields.Make("text", "test_field", "Test Field");
            && r.Success?
            && GetContext(r.value) == "post"
            && GetContext(SetContext(r.value, "term")) == "term"
            && GetContext(SetContext(SetContext(r.value, "term"), "user")) == "user"
            && GetContext(SetContext(SetContext(SetContext(r.value, "term"), "user"), "option")) == "option"
  {
    assert IsValidName("test_field");
  }

  lemma FieldStorageTypes()
    ensures var r := Fields.Make("text", "test_field", "Test Field");
            && r.Success?
            && GetStorageType(r.value) == "meta"
            && GetStorageType(SetStorageType(r.value, "option")) == "option"
  {
    assert IsValidName("test_field");
  }

  lemma MultipleValues()
    ensures var r := Fields.Make("select", "test_select", "Test Select");
            r.Success? && !IsMultiple(r.value) && IsMultiple(SetMultiple(r.value, true))
  {
    assert IsValidName("test_select");
  }

  lemma ToArrayConversion()
    ensures var r := Fields.Make("text", "test_field", "Test Field");
            r.Success? &&
            var a := ToArray(SetHelp(SetPlaceholder(SetRequired(SetDefault(r.value, "Default value"),
                                                               true), "Enter value"), "Help text"));
            && KType in a && a[KType] == MStr("text")
            && KName in a && a[KName] == MStr("test_field")
            && KLabel in a && a[KLabel] == MStr("Test Field")
            && KDefault in a && a[KDefault] == MStr("Default value")
            && KRequired in a && a[KRequired] == MBool(true)
            && KPlaceholder in a && a[KPlaceholder] == MStr("Enter value")
            && KHelp in a && a[KHelp] == MStr("Help text")
  {
    assert IsValidName("test_field");
  }

  lemma InvalidFieldType()
    ensures Fields.Make("invalid_type", "field_name", "Field Label")
            == Failure(InvalidArgument("Invalid field type: invalid_type"))
  {
    assert "invalid_type" !in FieldTypes;
    assert "Invalid field type: " + "invalid_type" == "Invalid field type: invalid_type";
  }

  lemma InvalidFieldName()
    ensures Fields.Make("text", "123-invalid", "Field Label")
            == Failure(InvalidArgument("Invalid field name: 123-invalid"))
  {
    assert !IsAsciiLetter("123-invalid"[0]);
    assert "Invalid field name: " + "123-invalid" == "Invalid field name: 123-invalid";
  }

  lemma FieldValidation()
    ensures var r := Fields.Make("text", "test_field", "Test Field");
            && r.Success?
            && !ValidateValue(SetRequired(r.value, true), "")
            && ValidateValue(SetRequired(r.value, true), "valid value")
            && ValidateValue(SetRequired(SetRequired(r.value, true), false), "")
  {
    assert IsValidName("test_field");
    var f := Fields.Make("text", "test_field", "Test Field").value;
    var v := "valid value";
    assert !IsTrimSpace(v[0]);
  }

  /** The test's script example. */
  function XssInput(): string {
    "<script>alert(\"xss\")</script>clean text"
  }

  lemma XssOpeningTag()
    ensures OccursAtCI(XssInput(), 0, "<script")
    ensures FindChar(XssInput(), '>', 7) == Some(7)
  {
    var s := XssInput();
    assert s[0..7] == "<script";
    LowerWithoutCapitals("<script");
    assert s[7] == '>';
  }

  lemma XssClosingTag()
    ensures FindScriptClose(XssInput(), 8) == Some(20)
  {
    var s := XssInput();
    assert s[20..29] == "</script>";
    LowerWithoutCapitals("</script>");
    assert forall j :: 8 <= j < 20 ==> s[j] != '<';
    FindScriptCloseAt(s, 8, 20);
  }

  lemma XssScriptMatch()
    ensures ScriptMatch(XssInput()) == Some(29)
  {
    XssOpeningTag();
    XssClosingTag();
  }

  lemma TextSanitizedUnderStub()
    ensures StubSanitizeText(XssInput()) == "clean text"
  {
    XssScriptMatch();
    XssTail();
    StubTextOfScriptPrefix(XssInput(), 29);
    DropNulsWithoutNul(XssInput()[29..]);
  }

  /** What follows the script element is plain, trimmed text. */
  lemma XssTail()
    ensures var c := XssInput()[29..];
            && c == "clean text" && '<' !in c && '\0' !in c
            && !IsTrimSpace(c[0]) && !IsTrimSpace(c[|c| - 1])
  {
    var c := "clean text";
    assert XssInput()[29..] == c;
    assert '<' !in c && '\0' !in c && !IsTrimSpace(c[0]) && !IsTrimSpace(c[|c| - 1]);
  }

  lemma TextFieldSanitization()
    ensures var t := Fields.Make("text", "test_field", "Test Field");
            t.Success? && SanitizeValue(t.value, XssInput(), FieldTestSanitizers()) == "clean text"
  {
    assert IsValidName("test_field");
    TextSanitizedUnderStub();
  }

  lemma EmailFieldSanitization()
    ensures var e := Fields.Make("email", "test_email", "Test Email");
            e.Success? && SanitizeValue(e.value, "user@example.com", FieldTestSanitizers()) == "user@example.com"
  {
    assert IsValidName("test_email");
    var a := "user@example.com";
    assert forall i :: 0 <= i < |a| ==> IsEmailChar(a[i]);
    StubSanitizeEmailKeepsClean(a);
  }

  // ---- the registry ----

  /** The field `Field::make(t, n, l)` returns for a known type and a valid name. */
  function Fresh(t: string, n: string, l: string): Field {
    Field(t, n, l, None, None, None, None, None, None, None, None, None, None, None)
  }

  lemma MakeIsFresh(t: string, n: string, l: string)
    requires t in FieldTypes && IsValidName(n)
    ensures Fields.Make(t, n, l) == Success(Fresh(t, n, l))
  {
  }

  /** The two fields of the registry tests. */
  lemma MakeRegistryFields()
    ensures Fields.Make("text", "field1", "Field 1") == Success(Fresh("text", "field1", "Field 1"))
    ensures Fields.Make("email", "field2", "Field 2") == Success(Fresh("email", "field2", "Field 2"))
  {
    assert IsValidName("field1") && IsValidName("field2");
    MakeIsFresh("text", "field1", "Field 1");
    MakeIsFresh("email", "field2", "Field 2");
  }

  lemma RegisterMultipleFields()
    ensures var m1 := Fields.Make("text", "field1", "Field 1");
            var m2 := Fields.Make("email", "field2", "Field 2");
            && m1.Success? && m2.Success?
            && GetFields(RegisterField(RegisterField(Empty(), "test_container", m1.value), "test_container", m2.value),
                         "test_container") == [m1.value, m2.value]
  {
    MakeRegistryFields();
    TwoRegistrations("test_container", Fresh("text", "field1", "Field 1"), Fresh("email", "field2", "Field 2"));
  }

  /** Two fields with distinct names registered in a new container read back in order. */
  lemma TwoRegistrations(id: string, f1: Field, f2: Field)
    requires f1.name != f2.name
    ensures GetFields(RegisterField(RegisterField(Empty(), id, f1), id, f2), id) == [f1, f2]
  {
    var c1 := AddByName([], f1);
    assert Keys(c1) == [f1.name] && Values(c1) == [f1];
    assert Container(RegisterField(Empty(), id, f1), id) == c1;
    assert Values(AddByName(c1, f2)) == [f1, f2];
  }

  lemma GetAllFieldsPerContainer()
    ensures var m1 := Fields.Make("text", "field1", "Field 1");
            var m2 := Fields.Make("email", "field2", "Field 2");
            && m1.Success? && m2.Success?
            && var all := GetAllFields(RegisterField(RegisterField(Empty(), "container1", m1.value),
                                                     "container2", m2.value));
               && "container1" in all && "container2" in all
               && all["container1"] == [("field1", m1.value)]
               && all["container2"] == [("field2", m2.value)]
  {
    MakeRegistryFields();
    var f1 := Fresh("text", "field1", "Field 1");
    var f2 := Fresh("email", "field2", "Field 2");
    var r1 := RegisterField(Empty(), "container1", f1);
    var r := RegisterField(r1, "container2", f2);
    OnlyFieldOfNewContainer(Empty(), "container1", f1);
    OnlyFieldOfNewContainer(r1, "container2", f2);
    assert r.containers["container1"] == r1.containers["container1"];
  }

  /** A container created by one registration holds exactly that field. */
  lemma OnlyFieldOfNewContainer(r: Registry, id: string, f: Field)
    requires !ContainerExists(r, id)
    ensures RegisterField(r, id, f).containers[id] == [(f.name, f)]
  {
    assert Container(r, id) == [];
  }

  lemma ContainerLifecycle()
    ensures var m := Fields.Make("text", "test_field", "Test Field");
            && m.Success?
            && var r := RegisterField(Empty(), "test_container", m.value);
               && !ContainerExists(Empty(), "test_container")
               && ContainerExists(r, "test_container")
               && !ContainerExists(RemoveContainer(r, "test_container"), "test_container")
               && RemoveContainer(Empty(), "non_existent_container") == Empty()
               && GetFields(Empty(), "non_existent_container") == []
               && GetAllFields(Clear(r)) == map[]
  {
    assert IsValidName("test_field");
  }

  // ---- the options page ----

  /** The page every options-page test starts from. */
  function TestPage(): OptionsPage {
    OptionsPages.Make("Test Page", "test-page")
  }

  function NoRequest(): Request {
    Request(map[], map[], None)
  }

  /** Adding a field to the only section of a page. */
  lemma AddToOnlySection(p: OptionsPage, s: OptionsSection, f: Field)
    requires p.sections == [(s.id, s)]
    ensures SectionAddField(p, s.id, f).sections == [(s.id, OptionsSections.AddField(s, f))]
  {
    assert Find(p.sections, s.id) == Some(0);
  }

  /** A field with a new name goes after the fields already in the section. */
  lemma AddNewField(s: OptionsSection, f: Field)
    requires f.name !in Keys(s.fields)
    ensures OptionsSections.AddField(s, f).fields == s.fields + [(f.name, f)]
  {
    assert Find(s.fields, f.name).None?;
  }

  lemma OneSection(p: OptionsPage, id: string, title: string)
    requires p.sections == []
    ensures AddSection(p, id, title, "").0.sections == [(id, OptionsSections.New(id, title, ""))]
  {
  }

  /** Two fields with distinct names added to an empty section, in order. */
  lemma TwoNewFields(s: OptionsSection, f1: Field, f2: Field)
    requires s.fields == [] && f1.name != f2.name
    ensures var r := OptionsSections.AddField(OptionsSections.AddField(s, f1), f2);
            r.id == s.id && r.fields == [(f1.name, f1), (f2.name, f2)]
  {
    FirstField(s, f1);
    SecondField(OptionsSections.AddField(s, f1), f1, f2);
  }

  lemma FirstField(s: OptionsSection, f1: Field)
    requires s.fields == []
    ensures OptionsSections.AddField(s, f1).fields == [(f1.name, f1)]
  {
    AddNewField(s, f1);
    assert s.fields + [(f1.name, f1)] == [(f1.name, f1)];
  }

  lemma SecondField(s1: OptionsSection, f1: Field, f2: Field)
    requires s1.fields == [(f1.name, f1)] && f1.name != f2.name
    ensures OptionsSections.AddField(s1, f2).fields == [(f1.name, f1), (f2.name, f2)]
  {
    assert Keys(s1.fields) == [f1.name];
    AddNewField(s1, f2);
    assert s1.fields + [(f2.name, f2)] == [(f1.name, f1), (f2.name, f2)];
  }

  /** Two fields with distinct names added to the only, empty section of a page. */
  lemma TwoFieldsInOnlySection(p: OptionsPage, s: OptionsSection, f1: Field, f2: Field)
    requires p.sections == [(s.id, s)] && s.fields == []
    requires f1.name != f2.name
    ensures var secs := SectionAddField(SectionAddField(p, s.id, f1), s.id, f2).sections;
            |secs| == 1 && secs[0].0 == s.id && secs[0].1.fields == [(f1.name, f1), (f2.name, f2)]
  {
    AddToOnlySection(p, s, f1);
    var s1 := OptionsSections.AddField(s, f1);
    AddToOnlySection(SectionAddField(p, s.id, f1), s1, f2);
    TwoNewFields(s, f1, f2);
  }

  // the fields the page tests make

  /** `Field::make('text', 'text_field', 'Text Field')` of the page tests. */
  function PageTextField(): (f: Field)
    ensures Fields.Make("text", "text_field", "Text Field") == Success(f)
  {
    assert IsValidName("text_field");
    MakeIsFresh("text", "text_field", "Text Field");
    Fresh("text", "text_field", "Text Field")
  }

  /** `Field::make('checkbox', 'checkbox_field', 'Checkbox Field')` of the sanitize test. */
  function PageCheckboxField(): (f: Field)
    ensures Fields.Make("checkbox", "checkbox_field", "Checkbox Field") == Success(f)
  {
    assert IsValidName("checkbox_field");
    MakeIsFresh("checkbox", "checkbox_field", "Checkbox Field");
    Fresh("checkbox", "checkbox_field", "Checkbox Field")
  }

  /** `Field::make('text', 'test_field', 'Test Field')` of the section-object test. */
  function SectionTestField(): (f: Field)
    ensures Fields.Make("text", "test_field", "Test Field") == Success(f)
  {
    assert IsValidName("test_field");
    MakeIsFresh("text", "test_field", "Test Field");
    Fresh("text", "test_field", "Test Field")
  }

  /** `Field::make('text', 'field1', 'Field 1')` of the load-options test. */
  function LoadTestField(): (f: Field)
    ensures Fields.Make("text", "field1", "Field 1") == Success(f)
  {
    MakeRegistryFields();
    Fresh("text", "field1", "Field 1")
  }

  lemma AddSectionObjectFoldsDefaults()
    ensures var f := SetDefault(SectionTestField(), "default_value");
            var s := OptionsSections.AddField(OptionsSections.New("custom_section", "Custom Section"), f);
            var p := AddSectionObject(TestPage(), s);
            && "custom_section" in Keys(p.sections)
            && "test_field" in p.defaultValues && p.defaultValues["test_field"] == Some("default_value")
  {
    var f := SetDefault(SectionTestField(), "default_value");
    var s := OptionsSections.AddField(OptionsSections.New("custom_section", "Custom Section"), f);
    assert s.fields == [("test_field", f)];
  }

  lemma LoadOptionsOverridesDefault()
    ensures var p := AddPageField(AddSection(TestPage(), "section1", "Section 1").0,
                                  SetDefault(LoadTestField(), "default1"));
            var q := LoadOptions(p, map["field1" := "value1"]);
            "field1" in q.optionValues && q.optionValues["field1"] == Some("value1")
  {
  }

  /** Two sections, "section1" then "section2". */
  function TwoSectionPage(): OptionsPage {
    AddSection(AddSection(TestPage(), "section1", "Section 1").0, "section2", "Section 2").0
  }

  lemma ActiveTabCases()
    ensures ActiveTab(TwoSectionPage(), Request(map[ActiveTabField := "section2"], map[], None)) == "section2"
    ensures ActiveTab(TwoSectionPage(), Request(map[], map[TabQueryParam := "section1"], None)) == "section1"
    ensures ActiveTab(TwoSectionPage(), NoRequest()) == "section1"
    ensures ActiveTab(TestPage(), NoRequest()) == "main"
  {
    TwoSectionIds();
  }

  lemma TwoSectionIds()
    ensures Keys(TwoSectionPage().sections) == ["section1", "section2"]
  {
    var p1 := AddSection(TestPage(), "section1", "Section 1").0;
    assert Keys(p1.sections) == ["section1"];
    assert ["section1"] + ["section2"] == ["section1", "section2"];
  }

  /** The page of the sanitize test: one section holding a text field and a checkbox. */
  function SanitizePage(): OptionsPage {
    var p := AddSection(TestPage(), "test_section", "Test Section").0;
    var p' := SectionAddField(p, "test_section", PageTextField());
    SectionAddField(p', "test_section", PageCheckboxField())
  }

  lemma SanitizePageSections()
    ensures var secs := SanitizePage().sections;
            && |secs| == 1 && secs[0].0 == "test_section"
            && secs[0].1.fields == [("text_field", PageTextField()),
                                    ("checkbox_field", PageCheckboxField())]
  {
    OneSection(TestPage(), "test_section", "Test Section");
    TwoFieldsInOnlySection(AddSection(TestPage(), "test_section", "Test Section").0,
                           OptionsSections.New("test_section", "Test Section"),
                           PageTextField(), PageCheckboxField());
  }

  lemma SanitizeOptionsFillsUncheckedBox()
    ensures var r := SanitizeOptions(SanitizePage(), map["text_field" := "sanitized text"],
                                     Request(map[ActiveTabField := "test_section"], map[], None), false,
                                     map[], PageTestSanitizers());
            && "text_field" in r && r["text_field"] == "sanitized text"
            && "checkbox_field" in r && r["checkbox_field"] == "0"
  {
    var req := Request(map[ActiveTabField := "test_section"], map[], None);
    SanitizePageSections();
    var m := ActiveFields(SanitizePage(), req);
    assert Find(SanitizePage().sections, "test_section") == Some(0);
    assert m[0].1 == PageTextField();
    assert m[1].1 == PageCheckboxField();
  }

  /** The page of the compact-input and settings tests: one section holding one text field. */
  function OneFieldPage(): OptionsPage {
    SectionAddField(AddSection(TestPage(), "test_section", "Test Section").0,
                    "test_section", PageTextField())
  }

  lemma OneFieldPageSections()
    ensures OneFieldPage().sections ==
      [("test_section", OptionsSection("test_section", "Test Section", "", [("text_field", PageTextField())]))]
  {
    var s := OptionsSections.New("test_section", "Test Section");
    OneSection(TestPage(), "test_section", "Test Section");
    AddToOnlySection(AddSection(TestPage(), "test_section", "Test Section").0, s, PageTextField());
    AddNewField(s, PageTextField());
    assert OptionsSections.AddField(s, PageTextField()).fields == [("text_field", PageTextField())];
  }

  lemma SanitizeOptionsWithCompactInput()
    ensures var req := Request(map[ActiveTabField := "test_section"], map[],
                               Some(map[DefaultOptionName := map["text_field" := "compact_value"]]));
            var r := SanitizeOptions(OneFieldPage(), map[], req, true, map[], PageTestSanitizers());
            "text_field" in r && r["text_field"] == "compact_value"
  {
    var req := Request(map[ActiveTabField := "test_section"], map[],
                       Some(map[DefaultOptionName := map["text_field" := "compact_value"]]));
    OneFieldPageSections();
    assert Find(OneFieldPage().sections, "test_section") == Some(0);
    var m := ActiveFields(OneFieldPage(), req);
    assert m == [("text_field", PageTextField())];
    var eff := EffectiveInput(OneFieldPage(), map[], req, true);
    assert eff == map["text_field" := "compact_value"];
    assert SanitizedAs(m[0].1, eff, map[], SanitizeOptions(OneFieldPage(), map[], req, true, map[], PageTestSanitizers()),
                       PageTestSanitizers());
  }

  lemma MenuPageDispatch()
    ensures AddMenuPage(SetParentSlug(TestPage(), "options-general.php"))
            == Submenu("options-general.php", "Test Page", "Test Page", "manage_options", "test-page", None)
    ensures AddMenuPage(SetParentSlug(TestPage(), "menu"))
            == TopLevel("Test Page", "Test Page", "manage_options", "test-page", "", None)
  {
  }

  lemma EnqueueAssetsScreenGuard()
    ensures EnqueueScript("hyperpress-admin-options", "http://example.com/plugin/assets/js/admin-options.js",
                          ["jquery"], "2.0.7", true)
            in EnqueueAssets(TestPage(), "settings_page_test-page", "http://example.com/plugin/", "2.0.7")
    ensures EnqueueAssets(TestPage(), "wrong_page", "http://example.com/plugin/", "2.0.7") == []
  {
    assert ScreenId(TestPage()) == "settings_page_test-page";
    assert "http://example.com/plugin/" + "assets/js/admin-options.js"
           == "http://example.com/plugin/assets/js/admin-options.js";
  }

  lemma RegisterSettingsCalls()
    ensures RegisterSettings(OneFieldPage())
            == [RegisterSetting("hyperpress_options", "hyperpress_options"),
                AddSettingsSection("test_section", "", "__return_false", "hyperpress_options"),
                AddSettingsField("text_field", "", "hyperpress_options", "test_section",
                                 ToArray(PageTextField()))]
  {
    OneFieldPageSections();
    var sec := OneFieldPage().sections[0].1;
    OneSectionOneFieldCalls(sec, PageTextField(), DefaultOptionName);
  }

  /** The settings calls of one section holding one field. */
  lemma OneSectionOneFieldCalls(s: OptionsSection, f: Field, page: string)
    requires s.fields == [(f.name, f)]
    ensures SectionCalls([(s.id, s)], page) == [SectionCall(s, page), FieldCall(f, page, s.id)]
  {
    assert [(s.id, s)][1..] == [];
  }

  lemma RegisterHooks()
    ensures Register(TestPage()) == [Hook("admin_menu", MenuHandler), Hook("admin_init", SettingsHandler),
                                     Hook("admin_enqueue_scripts", AssetsHandler)]
  {
  }
}

=== FILE: text.dfy ===
/** Character classes and PHP's `trim` over strings (sequences of characters). */
module Text {

  /** The characters PHP's `trim` removes by default: space, tab, newline,
      carriage return, NUL and vertical tab. */
  predicate IsTrimSpace(c: char) {
    c == ' ' || c == '\t' || c == '\n' || c == '\r' || c == '\0' || c == '\U{B}'
  }

  /** C's `isspace`: space, tab, newline, vertical tab, form feed, carriage return. */
  predicate IsCSpace(c: char) {
    c == ' ' || c == '\t' || c == '\n' || c == '\U{B}' || c == '\U{C}' || c == '\r'
  }

  predicate IsAsciiLetter(c: char) {
    ('a' <= c <= 'z') || ('A' <= c <= 'Z')
  }

  predicate IsAsciiDigit(c: char) {
    '0' <= c <= '9'
  }

  /** A regular-expression word character: `[A-Za-z0-9_]`. */
  predicate IsWordChar(c: char) {
    IsAsciiLetter(c) || IsAsciiDigit(c) || c == '_'
  }

  /** Every character of `s` is trim whitespace. */
  predicate AllSpace(s: string) {
    forall i :: 0 <= i < |s| ==> IsTrimSpace(s[i])
  }

  /** ASCII lower-casing, as a case-insensitive regular expression compares. */
  function LowerChar(c: char): (r: char)
    ensures !('A' <= c <= 'Z') ==> r == c
    ensures 'A' <= c <= 'Z' ==> 'a' <= r <= 'z'
  {
    if 'A' <= c <= 'Z' then (c as int + 32) as char else c
  }

  function Lower(s: string): (r: string)
    ensures |r| == |s|
    ensures forall i :: 0 <= i < |s| ==> r[i] == LowerChar(s[i])
  {
    seq(|s|, i requires 0 <= i < |s| => LowerChar(s[i]))
  }

  /** Lower-casing a string without capitals changes nothing. */
  lemma LowerWithoutCapitals(s: string)
    requires forall i :: 0 <= i < |s| ==> !('A' <= s[i] <= 'Z')
    ensures Lower(s) == s
  {
  }

  /** Drops leading trim whitespace. */
  function TrimLeft(s: string): (r: string)
    ensures |r| <= |s| && r == s[|s| - |r|..]
    ensures AllSpace(s[..|s| - |r|])
    ensures r == [] || !IsTrimSpace(r[0])
  {
    if |s| > 0 && IsTrimSpace(s[0]) then
      var r := TrimLeft(s[1..]);
      TrimLeftStep(s, r);
      r
    else s
  }

  /** A suffix of `s[1..]` after its leading whitespace is one of `s` when `s[0]` is whitespace. */
  lemma TrimLeftStep(s: string, r: string)
    requires |s| > 0 && IsTrimSpace(s[0])
    requires |r| <= |s| - 1 && r == s[1..][|s| - 1 - |r|..] && AllSpace(s[1..][..|s| - 1 - |r|])
    ensures r == s[|s| - |r|..] && AllSpace(s[..|s| - |r|])
  {
    var k := |s| - |r|;
    assert s[1..][k - 1..] == s[k..];
    forall i | 0 <= i < k ensures IsTrimSpace(s[..k][i]) {
      if i > 0 {
        assert s[..k][i] == s[1..][..k - 1][i - 1];
      }
    }
  }

  /** Drops trailing trim whitespace. */
  function TrimRight(s: string): (r: string)
    ensures |r| <= |s| && r == s[..|r|]
    ensures AllSpace(s[|r|..])
    ensures r == [] || !IsTrimSpace(r[|r| - 1])
  {
    if |s| > 0 && IsTrimSpace(s[|s| - 1]) then
      var r := TrimRight(s[..|s| - 1]);
      TrimRightStep(s, r);
      r
    else s
  }

  /** A prefix of `s[..|s| - 1]` before its trailing whitespace is one of `s` when the last character is whitespace. */
  lemma TrimRightStep(s: string, r: string)
    requires |s| > 0 && IsTrimSpace(s[|s| - 1])
    requires |r| <= |s| - 1 && r == s[..|s| - 1][..|r|] && AllSpace(s[..|s| - 1][|r|..])
    ensures r == s[..|r|] && AllSpace(s[|r|..])
  {
    assert s[..|s| - 1][..|r|] == s[..|r|];
    forall i | 0 <= i < |s| - |r| ensures IsTrimSpace(s[|r|..][i]) {
      if i < |s| - 1 - |r| {
        assert s[|r|..][i] == s[..|s| - 1][|r|..][i];
      }
    }
  }

  /** PHP `trim($s)`. */
  function Trim(s: string): (r: string)
    ensures exists a, b :: 0 <= a <= b <= |s| && r == s[a..b]
    ensures |r| <= |s|
    ensures r == [] || (!IsTrimSpace(r[0]) && !IsTrimSpace(r[|r| - 1]))
  {
    var l := TrimLeft(s);
    var r := TrimRight(l);
    assert r == s[|s| - |l|..][..|r|] == s[|s| - |l|..|s| - |l| + |r|];
    r
  }

  /** Trimming leaves nothing exactly when the string is all whitespace. */
  lemma TrimEmptyIff(s: string)
    ensures Trim(s) == [] <==> AllSpace(s)
  {
    if Trim(s) == [] {
      TrimEmptyAllSpace(s);
    }
  }

  lemma TrimEmptyAllSpace(s: string)
    requires Trim(s) == []
    ensures AllSpace(s)
  {
    var l := TrimLeft(s);
    var k := |s| - |l|;
    assert TrimRight(l) == [];
    assert AllSpace(l);
    assert AllSpace(s[..k]);
    forall i | 0 <= i < |s|
      ensures IsTrimSpace(s[i])
    {
      if i < k {
        assert s[i] == s[..k][i];
      } else {
        assert s[i] == l[i - k];
      }
    }
  }

  /** A string with no surrounding whitespace is its own trim. */
  lemma TrimOfTrimmed(s: string)
    requires s == [] || (!IsTrimSpace(s[0]) && !IsTrimSpace(s[|s| - 1]))
    ensures Trim(s) == s
  {
  }

  /** Trimming never introduces a character. */
  lemma TrimKeepsAbsentChar(s: string, c: char)
    requires c !in s
    ensures c !in Trim(s)
  {
  }
}

=== FILE: wrappers.dfy ===
/** Option and Result: absent values and the construction-time error path. */
module Wrappers {

  datatype Option<+T> = None | Some(value: T) {

    /** Returns the value in Some, or the given default for None. */
    function GetOr(default: T): (r: T)
      ensures Some? ==> r == value
      ensures None? ==> r == default
    {
      match this
      case Some(v) => v
      case None => default
    }
  }

  datatype Result<+R, +E> = Success(value: R) | Failure(error: E)
}
